=== FILE: README.md ===
# Taker NFT lending pool — a Dafny model

Taker is a Solana program, written with Anchor, for borrowing stablecoin (DAI) against NFTs:

- An owner deposits NFT units into a pool and is paid a TKR incentive per unit.
- A lender places a bid: a price and a quantity, backed by a DAI delegation to the pool.
- A borrower takes one unit of a bid. The lender's DAI goes to the borrower, and a loan record is created.
- The loan is either repaid before it expires, with interest to the lender and a service fee to the pool, or liquidated after it expires.

The model covers the following:

- **Instruction handlers.** `initialize`, `deposit_nft`, `withdraw_nft`, `bid`, `cancel_bid`, `borrow`, `repay` and `liquidate` (module `Taker`).
  - Each is a pure, atomic transition over an account store. The store is a map from addresses to typed records.
  - Token movements are recorded in a ledger.
  - A failing instruction returns an error and commits nothing.
  - A run of transactions is a fold of these transitions (module `Lifecycle`).
- **Account records.** The pool, listing, bid and loan records (module `Records`).
  - Program-derived addresses are modelled as their seed tuples (module `Accounts`), so derivation is injective by construction.
- **Record helpers.**
  - `NFTPool::new` (`Pools`).
  - `NFTListing::ensure` and the listing counters (`Listings`).
  - `NFTBid` (`Bids`).
  - `NFTLoan::start_borrow`, `repay` and `liquidate`, and the basis-point arithmetic of `repay` (`Loans`).
- **The per-deposit state machine of `nft_deposit.rs`** (`Deposits`). That file is not compiled into the final program, so it is modelled standalone with its own error type.
- **Instruction codecs.**
  - The byte-level instruction codec of the Anchor program (`TakerCodec`).
  - The codec of the earlier plain program (`LegacyCodec`).
  - Their shared public-key helpers (`KeyCodec`).

Failures are of two kinds:

- `Taker(e)` carries a program error of the `TakerError` enum.
- `Abort(reason)` is a panic or runtime refusal:
  - an overflowing checked or unchecked `u64`/`i64` operation;
  - a failed `assert!`;
  - an account that does not deserialise as the record type the instruction declares (Anchor checks this before the handler body runs);
  - creating an account at an address that is already in use.

Clocks and amounts are explicit parameters.

## Model

| member | source | states |
|---|---|---|
| KeyCodec.UnpackPubkey | programs/taker/src/instruction.rs:74-83 | Succeeds exactly when at least 32 bytes remain; the key and the remainder concatenate back to the input |
| KeyCodec.UnpackPubkeyOfConcat | program/src/instruction.rs:76-85 | Reading a key from `key ++ rest` yields that key and `rest` |
| KeyCodec.PackPubkeyOption | programs/taker/src/instruction.rs:98-106 | Appends 1 byte for `None` and 33 for `Some`, keeps the buffer as a prefix, and the appended bytes decode back to the value |
| KeyCodec.UnpackPubkeyOption | programs/taker/src/instruction.rs:85-96 | Succeeds exactly on tag 0, or on tag 1 followed by 32 bytes; any other tag or a short input is an error; the decoded value re-encodes to the consumed prefix |
| KeyCodec.PubkeyOptionRoundTrip | programs/taker/src/instruction.rs:85-106 | Decoding the encoding of an optional key, followed by any tail, returns the key and the tail |
| KeyCodec.OptionBytesRoundTrip | program/src/instruction.rs:87-108 | The same round trip for the earlier program's copy of the helpers |
| TakerCodec.Unpack | programs/taker/src/instruction.rs:46-57 | Empty input is an error; tag 0 is `Initialize`; tag 1 with a 32-byte key is `DepositNFT`; every other input is `InvalidInstruction` |
| TakerCodec.Pack | programs/taker/src/instruction.rs:59-71 | Encodes to 1 or 33 bytes, and unpacking the encoding returns the instruction |
| TakerCodec.UnpackPackWithTail | programs/taker/src/instruction.rs:46-71 | Trailing bytes after an encoded instruction do not change what is decoded |
| TakerCodec.PackIsPrefixOfDecoded | programs/taker/src/instruction.rs:46-71 | Any input that decodes starts with the encoding of what it decodes to |
| LegacyCodec.Unpack | program/src/instruction.rs:53-62 | Succeeds exactly on tag 0 followed by 32 bytes, yielding that key |
| LegacyCodec.Pack | program/src/instruction.rs:64-73 | Tag 0 followed by the key, and unpacking it returns the instruction |
| LegacyCodec.UnpackPackWithTail | program/src/instruction.rs:53-73 | Trailing bytes do not change what is decoded |
| LegacyCodec.DecodedInputsShareEncoding | program/src/instruction.rs:53-73 | Two inputs that decode to the same instruction agree on their first 33 bytes |
| Accounts.LoanAddressInjective | programs/taker/src/nft_loan.rs:133-150 | Two loan addresses are equal exactly when their (mint, borrower, lender, loan id) tuples are equal |
| Pools.NewPool | programs/taker/src/nft_pool.rs:15-29 | The new pool copies the bump, the owner and the three mints, and starts with incentive 100, duration 30, fee 500 and interest 100 |
| Listings.Ensure | programs/taker/src/nft_listing.rs:10-51 | Refuses a wrong address; returns a zero listing for an unallocated one, and the stored listing otherwise; aborts on an account of another type |
| Listings.EnsureIdempotent | programs/taker/src/nft_listing.rs:22-50 | After a zero listing is created at its address, ensuring it again returns the same listing |
| Listings.EnsureReadsOnlyItsKey | programs/taker/src/nft_listing.rs:18-50 | The outcome depends only on the supplied address and what is stored there |
| Listings.Deposit | programs/taker/src/lib.rs:181 | Adds `n` to both counters, and aborts on overflow |
| Listings.Withdraw | programs/taker/src/lib.rs:215 | Refuses more than is available as `NFTOverdrawn`; otherwise removes `n` from both counters |
| Listings.BorrowSuccess | programs/taker/src/lib.rs:367 | Refuses an empty reserve as `EmptyNFTReserve`; otherwise takes one unit out of `available` and leaves `count` alone |
| Listings.RepaySuccess | programs/taker/src/lib.rs:448 | Puts one unit back into `available` exactly when fewer than `count` are available. Otherwise the bound assertion fails, except at `available == u64::MAX`, where the increment overflows first |
| Listings.Liquidate | programs/taker/src/lib.rs:506 | Same guard and effect as `Withdraw` (an assumed contract) |
| Listings.WithdrawUndoesDeposit | programs/taker/src/lib.rs:181-215 | Withdrawing what was just deposited restores the listing |
| Listings.RepayUndoesBorrow | programs/taker/src/lib.rs:367-448 | Repaying right after a successful borrow restores the listing |
| Listings.MutatorsKeepListingOk | programs/taker/src/lib.rs:38-41 | Every listing mutator keeps `available <= count` |
| Bids.Ensure | programs/taker/src/lib.rs:269-276 | Refuses a wrong address; a zero bid when unallocated; the stored bid otherwise (an assumed contract) |
| Bids.EnsureIdempotent | programs/taker/src/lib.rs:269-276 | After a zero bid is created, ensuring it again returns the same bid |
| Bids.Place | programs/taker/src/lib.rs:277 | The bid then carries exactly the given price and quantity (an assumed contract) |
| Bids.Cancel | programs/taker/src/lib.rs:308 | The bid is then empty (an assumed contract) |
| Bids.Trade | programs/taker/src/lib.rs:365 | Refuses more than the remaining quantity as `NFTOvertrade`; otherwise lowers it by `n` at the same price (an assumed contract) |
| Bids.TradesCompose | programs/taker/src/lib.rs:365 | Trading `m` then `n` is trading `m + n` |
| Loans.StartBorrow | programs/taker/src/nft_loan.rs:23-100 | Refuses a wrong loan address and an allocated one, in that order; aborts when the expiry overflows `i64`; otherwise an active loan with the given cash, start, and expiry = start + duration |
| Loans.Repay | programs/taker/src/nft_loan.rs:103-105 | The loan becomes `Repayed` with its terms unchanged, whatever its state was |
| Loans.Liquidate | programs/taker/src/nft_loan.rs:108-110 | The loan becomes `Liquidated` with its terms unchanged |
| Loans.BasisPointsOf | programs/taker/src/lib.rs:438-443 | Defined exactly when `amount * rate` fits in `u64`, and then the floor of `amount * rate / 10000` |
| Loans.LenderRepayment | programs/taker/src/lib.rs:416-426 | Cash plus floored interest, defined exactly when neither the product nor the sum overflows |
| Taker.Initialize | programs/taker/src/lib.rs:63-97 | Refuses a pool account not at the pool address; aborts if it is in use; otherwise stores the default pool and changes nothing else |
| Taker.DepositNFT | programs/taker/src/lib.rs:99-186 | Succeeds exactly when the pool exists and either `count` is 0 (a no-op) or all of these hold: the TKR mint and the pool's TKR account match the pool, the NFT has 0 decimals, `count × incentive` fits in `u64`, the listing is at its address and is absent or a listing, and both counters stay in `u64`. On success the listing gains `count` on both counters, the NFT and reward transfers are recorded, and nothing else changes |
| Taker.DepositNFTRefusals | programs/taker/src/lib.rs:99-186 | Once the pool, the `count` guard and the earlier checks pass, the error codes are fixed: a mint mismatch or nonzero decimals is an assertion abort, a wrong listing address is `NFTListingAddressNotCorrect` (and only then), another kind of account there fails to deserialise, and counter overflow is an arithmetic abort. |
| Taker.WithdrawNFT | programs/taker/src/lib.rs:188-232 | Succeeds exactly when the pool and the listing exist, the listing is at the user's address, and `count` units are available. Too large a count is `NFTOverdrawn`. On success both counters drop by `count` and the pool-signed NFT transfer is recorded |
| Taker.PlaceBid | programs/taker/src/lib.rs:234-282 | Succeeds exactly when the pool exists and either `qty` is 0 (a no-op) or all of these hold: `qty` is within the NFT supply, the NFT has 0 decimals, `price × qty` fits in `u64`, and the bid is at its address and is absent or a bid. Too large a quantity is `NFTOverbid`. On success the pool is approved for `price × qty` and the bid becomes (price, qty) |
| Taker.PlaceBidRefusals | programs/taker/src/lib.rs:234-282 | Once the earlier checks pass, the error codes are fixed: nonzero decimals is an assertion abort, a `price × qty` overflow an arithmetic abort, a wrong bid address `NFTBidAddressNotCorrect` (and only then), and another kind of account there fails to deserialise. |
| Taker.CancelBid | programs/taker/src/lib.rs:284-327 | Optionally revokes the delegation and empties the bid; nothing else changes |
| Taker.Borrow | programs/taker/src/lib.rs:329-385 | Succeeds exactly when the pool, listing and bid exist, `amount` is within the bid price, a bid unit is left, a listing unit is available, the loan address is the derived one and unallocated, and the expiry fits in `i64`. Too large an amount is `NFTBorrowExceedBid`. On success one bid unit is traded, one listing unit is lent, an active loan for the pool's duration is created, and the pool-signed DAI transfer to the borrower is recorded |
| Taker.BorrowRefusals | programs/taker/src/lib.rs:329-385 | Each later check has a fixed code once the earlier ones pass: no bid unit left is `NFTOvertrade`, no listing unit available is `EmptyNFTReserve`, a wrong loan address is `NFTLoanAddressNotCorrect`, a loan already there is `LoanAlreadyExist`, and an expiry past `i64` is an arithmetic abort. |
| Taker.Repay | programs/taker/src/lib.rs:387-451 | Refuses as `LoanLiquidated` exactly when the loan has expired or is liquidated. Succeeds exactly when that guard passes, the interest and fee arithmetic fits in `u64`, and a unit is lent out. On success the lender is paid cash plus interest and the pool the service fee, the loan becomes `Repayed`, and one unit becomes available again |
| Taker.RepayRefusals | programs/taker/src/lib.rs:387-451 | Past the window guard, an interest or fee overflow is an arithmetic abort. Once the interest and fee fit, a listing with no unit lent out is an assertion abort (an arithmetic one only when `available` is `u64::MAX`). |
| Taker.Liquidate | programs/taker/src/lib.rs:453-509 | Refuses a loan that is not active, then one that has not expired. Succeeds exactly when the loan is active and expired and the listing can give up a unit. On success the loan is `Liquidated`, one listing unit is given up, and one NFT goes to the supplied account |
| Taker.LiquidateRefusals | programs/taker/src/lib.rs:453-509 | For an active, expired loan, a listing with no available unit is `NFTOverdrawn`, and one with a unit available but a zero count is an arithmetic abort. |
| Lifecycle.StepKeepsValid | programs/taker/src/lib.rs:99-509 | No transaction breaks `available <= count` on any listing |
| Lifecycle.RunKeepsValid | programs/taker/src/lib.rs:99-509 | No sequence of transactions breaks it |
| Lifecycle.StepNeverDeallocates | programs/taker/src/lib.rs:63-509 | No transaction frees an account |
| Lifecycle.RunNeverDeallocates | programs/taker/src/lib.rs:63-509 | No sequence of transactions frees an account |
| Lifecycle.CreatedLoanIsNew | programs/taker/src/nft_loan.rs:54-58 | A loan that one transaction creates was absent before it and is present after it |
| Lifecycle.CreationsAreFresh | programs/taker/src/nft_loan.rs:54-58 | Every loan created along a run was absent at its start and present at its end |
| Lifecycle.OneLoanPerKey | programs/taker/src/nft_loan.rs:54-58 | No loan address is created twice along a run, so there is one loan per (mint, borrower, lender, loan id) |
| Lifecycle.StepLoanEvolves | programs/taker/src/lib.rs:387-509 | A loan keeps its terms across a transaction, and its state moves only Active → Repayed/Liquidated (or Finalized → Repayed) |
| Lifecycle.RunLoanEvolves | programs/taker/src/lib.rs:387-509 | The same along any run |
| Lifecycle.LiquidatedIsFinal | programs/taker/src/lib.rs:400-404 | A liquidated loan is never changed again |
| Lifecycle.NeverFinalized | programs/taker/src/nft_loan.rs:14-19 | No instruction ever sets the `Finalized` state |
| Lifecycle.StepKeepsPool | programs/taker/src/lib.rs:63-97 | No single transaction changes an initialised pool record: `initialize` is refused, and no other handler writes the pool address |
| Lifecycle.PoolImmutable | programs/taker/src/lib.rs:63-97 | Once initialised, the pool record never changes |
| Guards.TimeGuardsComplement | programs/taker/src/lib.rs:400-404 | At every timestamp, exactly one of the repay window and the liquidation window is open |
| Guards.RepayLiquidateExclusive | programs/taker/src/lib.rs:387-509 | The same loan cannot be both repaid and liquidated at the same timestamp |
| Guards.ActiveLoanHasOneWindow | programs/taker/src/lib.rs:472-478 | For an active loan, repay is refused as expired exactly when liquidate gets past its expiry check |
| Guards.RepayAdmitsRepayedLoan | programs/taker/src/lib.rs:400-448 | A repaid loan inside its window is repaid again whenever a unit is lent out and the arithmetic fits. The lender and the pool are paid again, the loan stays `Repayed`, and one more unit becomes available |
| Guards.LiquidateIgnoresCaller | programs/taker/src/lib.rs:453-509 | Neither the signing wallet nor the destination NFT account changes whether liquidate succeeds, which error it gives, or its effect on the accounts. The released unit goes to whichever destination the caller names |
| Scenarios.Pooled | programs/taker/src/lib.rs:63-97 | `initialize` on an empty store succeeds and leaves only the pool, with the default rates |
| Scenarios.Deposited | programs/taker/src/lib.rs:99-186 | Depositing `n` units, up to the mint's supply, succeeds with listing (n, n), a reward of `100 × n`, and only the pool and the listing allocated |
| Scenarios.BidPlaced | programs/taker/src/lib.rs:234-282 | A bid of 1000 for 5 units then succeeds, stores (1000, 5) and records an approval of 5000 |
| Scenarios.Lent | programs/taker/src/lib.rs:329-385 | Borrowing 1000 then succeeds, giving listing (n, n − 1), bid (1000, 4), an active loan expiring 30 s later, and the DAI transfer to the borrower |
| Scenarios.BorrowScenario | programs/taker/src/lib.rs:63-385 | Initialising, depositing one unit, bidding 1000 × 5 and borrowing 1000 give the expected records and ledger |
| Scenarios.Borrowed | programs/taker/src/lib.rs:329-385 | After that borrow, the loan is (1000, T0, T0+30, Active) and the listing is (1, 0) |
| Scenarios.EarlyLiquidationRefused | programs/taker/src/lib.rs:472-478 | Liquidation at or before expiry is refused as `LoanNotExpired` |
| Scenarios.RepayScenario | programs/taker/src/lib.rs:387-451 | Repaying pays 1010 to the lender and 50 to the pool, frees the unit, and a reused loan id is refused |
| Scenarios.BorrowAgainstForeignListing | programs/taker/src/lib.rs:329-385 | A wallet can borrow against another wallet's listing |
| Scenarios.TwoLoans | programs/taker/src/lib.rs:329-385 | Two units deposited and lent out under two loan ids, giving two active loans and no available unit |
| Scenarios.RepayFreesAnotherUnit | programs/taker/src/lib.rs:400-448 | Repaying a loan that is active or already repaid, inside its window and while a unit is lent out, makes one more unit available and leaves the other loan alone |
| Scenarios.RepaidOnce | programs/taker/src/lib.rs:387-451 | After the first repayment, the listing is (2, 1), the loan is `Repayed` and the second loan is still active |
| Scenarios.RepaidTwice | programs/taker/src/lib.rs:387-451 | Repaying the same loan again succeeds and makes the listing (2, 2) while the second loan is still active |
| Scenarios.EmptiedListing | programs/taker/src/lib.rs:188-232 | The owner can then withdraw both units, although the second loan is active |
| Scenarios.DoubleRepayReleasesLentCollateral | programs/taker/src/lib.rs:453-509 | After that withdrawal, liquidating the expired second loan finds no unit to give up (`NFTOverdrawn`) |
| Deposits.Deposit | programs/taker/src/nft_deposit.rs:32-92 | Refuses a wrong address and then an allocated one; otherwise a pending record with the given id |
| Deposits.Withdraw | programs/taker/src/nft_deposit.rs:94-103 | Succeeds exactly on a pending deposit; a withdrawn or repaid one is `NFTAlreadyWithdrawn`, and an active or liquidated one is `NFTLocked` |
| Deposits.StartBorrow | programs/taker/src/nft_deposit.rs:105-126 | Only from pending (otherwise `BorrowAlreadyStarted`); aborts when borrowed exceeds total or the expiry overflows; otherwise an active loan with exactly the given terms |
| Deposits.Repay | programs/taker/src/nft_deposit.rs:128-141 | Succeeds exactly on an active loan and keeps its lender; otherwise `LoanNotActive` |
| Deposits.Liquidate | programs/taker/src/nft_deposit.rs:143-153 | Succeeds exactly on an active loan; otherwise `LoanNotActive` |
| Deposits.TerminalStatesAreFinal | programs/taker/src/nft_deposit.rs:94-153 | Withdrawn, repaid and liquidated deposits refuse every operation |
| Deposits.ApplyAllReaches | programs/taker/src/nft_deposit.rs:13-29 | Along any sequence of operations, the deposit id is kept and the state moves only along the machine's edges |
| Deposits.TerminalIsAbsorbing | programs/taker/src/nft_deposit.rs:13-29 | A terminal deposit is left unchanged by any sequence of operations |

## Behaviour of the code that the model follows

- `repay` refuses a loan only when it has expired or is `Liquidated`. A loan that is already `Repayed` (or `Finalized`) is repaid again.
  - Each repayment makes one more listing unit available, as long as one is lent out.
  - So repaying one loan twice frees collateral that another active loan still holds. The owner can then withdraw it (`Scenarios.RepaidTwice`, `Scenarios.EmptiedListing`, `Scenarios.DoubleRepayReleasesLentCollateral`).
- `borrow` checks neither the listing nor the bid address; only the loan address is checked, by `NFTLoan::start_borrow`. `repay` and `liquidate` check neither the listing nor the loan address.
  - A borrower can consume another wallet's listing (`Scenarios.BorrowAgainstForeignListing`).
- `repay` puts no constraint on `lender_dai_account` or `pool_dai_account` (`programs/taker/src/lib.rs:646-650`). So the borrower chooses where the repayment and the service fee go, and the model records the transfers to the accounts as given.
- `liquidate` does not check that the signer is the lender. The loan record does not store the lender.
- Under the assumed `liquidate(n)` contract (same guard as `withdraw`), the only lent unit of a listing is not `available`. So liquidating it after expiry is refused as `NFTOverdrawn`.
- The pool record in `lib.rs` has no `total_num_loans` field, although `nft_pool.rs` sets one. The model follows `lib.rs`.
- `lib.rs` declares the listing with both `count` and `available`, but `NFTListing::ensure` builds a new listing with only `count: 0` written out. The model creates the new listing with both counters at 0.

## Left out

- Taker.Initialize, Listings.Ensure, Taker.WithdrawNFT: the address checks they rely on are not part of this model. These are `NFTPool::verify_address` (`programs/taker/src/lib.rs:68`), `NFTListing::verify_address` (`programs/taker/src/lib.rs:206`) and `utils::verify_nft_listing_address` (`programs/taker/src/nft_listing.rs:20`). The model makes three assumptions about them. (1) Each refuses exactly an address other than the derived one. (2) The refusal codes are `ContractAddressNotCorrect` for the pool and `NFTListingAddressNotCorrect` for a listing. (3) Listing and bid addresses never coincide. The listing seeds are only `[mint, wallet]`, with no tag for the kind of account (`programs/taker/src/nft_listing.rs:30-31`), and the bid seeds are not part of this model. The model's separate `ListingSeeds` and `BidSeeds` constructors make the two kinds of address distinct by construction.
- Listings.Liquidate: the `liquidate(n)` body is not part of this model. It is assumed to have the same guard and effect as `withdraw(n)`.
- Listings.Deposit, Listings.Withdraw, Listings.BorrowSuccess, Listings.RepaySuccess: follow the listing mutators of a copy of `nft_listing.rs` kept beside it in the repository. The borrow refusal uses the final enum's name, `EmptyNFTReserve`.
- Bids.Ensure, Bids.Place, Bids.Cancel, Bids.Trade, Taker.PlaceBid, Taker.CancelBid: `nft_bid.rs` is not part of this model. The `Bids.*` contracts are assumed from how `lib.rs` uses them. `Taker.CancelBid` relies on `NFTBid::verify_address` (`programs/taker/src/lib.rs:300`), and `Taker.PlaceBid` on `NFTBid::ensure` (`programs/taker/src/lib.rs:269`). Both are assumed to refuse exactly a non-derived bid address, with the code `NFTBidAddressNotCorrect`.
- Every unchecked `u64`/`i64` operation is modelled as aborting on overflow: the deposit reward, the bid approval, the listing `+=` in `deposit`, the `-=` in `withdraw`, the `available += 1` in `repay_success` and the `i64` expiry `start + length` in `start_borrow`, as a build with overflow checks does. A release build would wrap instead, and that is not modelled.
- Signer checks, rent and lamports are not modelled, because they are enforced by the runtime and Anchor attributes.
- Associated-token-account creation (`ensure_pool_token_account`, `ensure_user_token_account`) is not modelled. It is a call into another program, and it creates token accounts, which are not part of the modelled state.
- Token balances and token-program failures are not modelled. Transfers, approvals and revocations are recorded in a ledger, not executed. A transfer the token program would reject is therefore not modelled as a failure. One example is `liquidate`'s NFT transfer, which is not signed with the pool's seeds.
- Program-derived address search (`find_program_address`) and bump seeds are not modelled. An address is modelled as its seed tuple, because the hash is a foreign computation.
- Borsh serialisation of account data, and events, are not modelled.
- The clock sysvar is not modelled. The current timestamp is a parameter.
- The CLI binaries, scripts and the earlier program's processor are not modelled, because they are outside the program core.

=== FILE: accounts.dfy ===
/**
 * Account addresses. A program-derived address is represented by the seed tuple it
 * is derived from, so derivation is injective in its seeds (a collision-free
 * stand-in for the hash-based `find_program_address`), and such an address is never
 * equal to an ordinary key. The bump seed is not represented.
 */
module Accounts {
  import opened Primitives

  /**
   * The seed tuples the program derives its accounts from. Each kind of account
   * has its own constructor, so a listing and a bid for the same mint and wallet
   * get different addresses. The listing seeds in the program are only the mint
   * and the wallet, so this is an assumption about the bid seeds.
   */
  datatype Seeds =
    | PoolSeeds
    | ListingSeeds(mint: Pubkey, wallet: Pubkey)
    | BidSeeds(mint: Pubkey, wallet: Pubkey)
    | LoanSeeds(mint: Pubkey, borrower: Pubkey, lender: Pubkey, loan_id: Pubkey)
    | DepositSeeds(mint: Pubkey, borrower: Pubkey, deposit_id: Pubkey)

  datatype Address = Key(key: Pubkey) | Derived(seeds: Seeds)

  function Derive(seeds: Seeds): (a: Address)
    ensures a.Derived?
  {
    Derived(seeds)
  }

  /** The address of the singleton pool account. */
  function PoolAddress(): Address {
    Derive(PoolSeeds)
  }

  /** The listing of `wallet` for `mint`; derived from (mint, wallet) only. */
  function ListingAddress(mint: Pubkey, wallet: Pubkey): Address {
    Derive(ListingSeeds(mint, wallet))
  }

  function BidAddress(mint: Pubkey, wallet: Pubkey): Address {
    Derive(BidSeeds(mint, wallet))
  }

  function LoanAddress(mint: Pubkey, borrower: Pubkey, lender: Pubkey, loan_id: Pubkey): Address {
    Derive(LoanSeeds(mint, borrower, lender, loan_id))
  }

  function DepositAddress(mint: Pubkey, borrower: Pubkey, deposit_id: Pubkey): Address {
    Derive(DepositSeeds(mint, borrower, deposit_id))
  }

  /** Equal loan addresses come from equal (mint, borrower, lender, loan id) tuples. */
  lemma LoanAddressInjective(m: Pubkey, b: Pubkey, l: Pubkey, id: Pubkey,
                             m': Pubkey, b': Pubkey, l': Pubkey, id': Pubkey)
    ensures LoanAddress(m, b, l, id) == LoanAddress(m', b', l', id') <==>
            m == m' && b == b' && l == l' && id == id'
  {
  }
}

=== FILE: bids.dfy ===
/**
 * Bids: a lender's standing offer for one mint. The handlers call `NFTBid::ensure`,
 * `bid`, `cancel` and `trade`; `nft_bid.rs`, which defines them, is not modelled,
 * so every member here is an ASSUMED contract read off those call sites and the
 * error names of the program's enum.
 */
module Bids {
  import opened Results
  import opened Primitives
  import opened Accounts
  import opened Records

  /** Fetch-or-create at the (mint, wallet) bid address, by analogy with the listing. */
  function Ensure(accounts: map<Address, Account>, mint: Pubkey, wallet: Pubkey, supplied: Address): (r: Result<Bid, Failure>)
    ensures r == Err(Taker(NFTBidAddressNotCorrect)) <==> supplied != BidAddress(mint, wallet)
    ensures supplied == BidAddress(mint, wallet) && supplied !in accounts ==> r == Ok(Bid(0, 0))
    ensures supplied == BidAddress(mint, wallet) && supplied in accounts ==>
              (r.Ok? <==> accounts[supplied].BidAccount?) &&
              (r.Ok? ==> r.value == accounts[supplied].bid)
    ensures r.Err? && supplied == BidAddress(mint, wallet) ==> r.error == Abort(AccountNotDeserializable)
  {
    if supplied != BidAddress(mint, wallet) then Err(Taker(NFTBidAddressNotCorrect))
    else if supplied !in accounts then Ok(Bid(0, 0))
    else match accounts[supplied]
      case BidAccount(b) => Ok(b)
      case _ => Err(Abort(AccountNotDeserializable))
  }

  /** Once the bid `Ensure` returned is stored, `Ensure` returns it again unchanged. */
  lemma EnsureIdempotent(accounts: map<Address, Account>, mint: Pubkey, wallet: Pubkey, supplied: Address)
    requires Ensure(accounts, mint, wallet, supplied).Ok?
    ensures var b := Ensure(accounts, mint, wallet, supplied).value;
            Ensure(accounts[supplied := BidAccount(b)], mint, wallet, supplied) == Ok(b)
  {
  }

  /** `bid(price, qty)`: a new offer replaces the old one, it does not add to it. */
  function Place(b: Bid, price: u64, qty: u64): (r: Bid)
    ensures r.price == price && r.qty == qty
  {
    Bid(price, qty)
  }

  /** `cancel()`: the offer is withdrawn entirely. */
  function Cancel(b: Bid): (r: Bid)
    ensures r.qty == 0 && r.price == 0
  {
    Bid(0, 0)
  }

  /** `trade(n)`: `n` units of the offer are consumed; more than offered is `NFTOvertrade`. */
  function Trade(b: Bid, n: u64): (r: Result<Bid, Failure>)
    ensures r.Ok? <==> n <= b.qty
    ensures r.Ok? ==> r.value.price == b.price && r.value.qty == b.qty - n
    ensures r.Err? ==> r.error == Taker(NFTOvertrade)
  {
    if n > b.qty then Err(Taker(NFTOvertrade)) else Ok(b.(qty := b.qty - n))
  }

  /** Trading `m` then `n` units is trading `m + n` units at once. */
  lemma TradesCompose(b: Bid, m: u64, n: u64)
    requires m + n <= U64_MAX
    ensures Trade(b, m).Ok? && Trade(Trade(b, m).value, n).Ok? <==> Trade(b, m + n).Ok?
    ensures Trade(b, m + n).Ok? ==> Trade(Trade(b, m).value, n) == Trade(b, m + n)
  {
  }
}

=== FILE: deposits.dfy ===
/**
 * The per-deposit state machine of `nft_deposit.rs`, a snapshot of the program in
 * which each deposited NFT carries its own record. The file is not compiled into
 * the final program, so it has its own error type: two of its errors
 * (`NFTAlreadyWithdrawn`, `NFTLocked`) are not in the final error enum.
 *
 *   PendingLoan --withdraw-->     Withdrawn                      [terminal]
 *   PendingLoan --start_borrow--> LoanActive --repay-->     LoanRepayed    [terminal]
 *                                           --liquidate--> LoanLiquidated [terminal]
 */
module Deposits {
  import opened Results
  import opened Primitives
  import opened Accounts
  import Records

  datatype DepositState =
    | PendingLoan
    | Withdrawn
    | LoanActive(total_amount: u64, borrowed_amount: u64, started_at: i64, expired_at: i64, lender: Pubkey)
    | LoanLiquidated
    | LoanRepayed(lender_withdrawable: u64, lender: Pubkey)

  datatype NFTDeposit = NFTDeposit(deposit_id: Pubkey, state: DepositState)

  datatype DepositError =
    | NFTLoanAddressNotCorrect
    | LoanAlreadyExist
    | NFTAlreadyWithdrawn
    | NFTLocked
    | BorrowAlreadyStarted
    | LoanNotActive

  datatype DepositFailure = Refused(code: DepositError) | Aborted(reason: Records.AbortReason)

  /** No operation leaves these states successfully. */
  predicate Terminal(st: DepositState) {
    st.Withdrawn? || st.LoanRepayed? || st.LoanLiquidated?
  }

  /**
   * `NFTDeposit::deposit`: the record lives at the address derived from
   * (mint, borrower, deposit id), which must not be allocated yet; it starts
   * pending.
   */
  function Deposit(existing: set<Address>, deposit_id: Pubkey, mint: Pubkey, borrower: Pubkey, supplied: Address): (r: Result<NFTDeposit, DepositFailure>)
    ensures r == Err(Refused(NFTLoanAddressNotCorrect)) <==> supplied != DepositAddress(mint, borrower, deposit_id)
    ensures r == Err(Refused(LoanAlreadyExist)) <==> supplied == DepositAddress(mint, borrower, deposit_id) && supplied in existing
    ensures r.Ok? <==> supplied == DepositAddress(mint, borrower, deposit_id) && supplied !in existing
    ensures r.Ok? ==> r.value.deposit_id == deposit_id && r.value.state == PendingLoan
  {
    if supplied != DepositAddress(mint, borrower, deposit_id) then Err(Refused(NFTLoanAddressNotCorrect))
    else if supplied in existing then Err(Refused(LoanAlreadyExist))
    else Ok(NFTDeposit(deposit_id, PendingLoan))
  }

  /**
   * `withdraw`: only a pending deposit can be withdrawn; one already withdrawn or
   * repaid reports `NFTAlreadyWithdrawn`, one under an active or liquidated loan
   * reports `NFTLocked`.
   */
  function Withdraw(d: NFTDeposit): (r: Result<NFTDeposit, DepositFailure>)
    ensures r.Ok? <==> d.state == PendingLoan
    ensures r.Ok? ==> r.value.deposit_id == d.deposit_id && r.value.state == Withdrawn
    ensures d.state.Withdrawn? || d.state.LoanRepayed? ==> r == Err(Refused(NFTAlreadyWithdrawn))
    ensures d.state.LoanActive? || d.state.LoanLiquidated? ==> r == Err(Refused(NFTLocked))
  {
    match d.state
    case PendingLoan => Ok(d.(state := Withdrawn))
    case Withdrawn => Err(Refused(NFTAlreadyWithdrawn))
    case LoanRepayed(_, _) => Err(Refused(NFTAlreadyWithdrawn))
    case LoanActive(_, _, _, _, _) => Err(Refused(NFTLocked))
    case LoanLiquidated => Err(Refused(NFTLocked))
  }

  /**
   * `start_borrow`: only a pending deposit; the borrowed amount may not exceed the
   * total (an `assert!`, so a violation aborts); the loan expires `length` seconds
   * after `start`.
   */
  function StartBorrow(d: NFTDeposit, lender: Pubkey, total_amount: u64, borrowed_amount: u64, start: i64, length: i64): (r: Result<NFTDeposit, DepositFailure>)
    ensures d.state != PendingLoan ==> r == Err(Refused(BorrowAlreadyStarted))
    ensures d.state == PendingLoan && total_amount < borrowed_amount ==> r == Err(Aborted(Records.AssertionFailed))
    ensures r.Ok? <==> d.state == PendingLoan && total_amount >= borrowed_amount && I64_MIN <= start + length <= I64_MAX
    ensures r.Ok? ==> r.value.deposit_id == d.deposit_id &&
                      r.value.state.LoanActive? && r.value.state.lender == lender &&
                      r.value.state.total_amount == total_amount && r.value.state.borrowed_amount == borrowed_amount &&
                      r.value.state.started_at == start && r.value.state.expired_at == start + length
  {
    if d.state != PendingLoan then Err(Refused(BorrowAlreadyStarted))
    else if total_amount < borrowed_amount then Err(Aborted(Records.AssertionFailed))
    else match CheckedAddI64(start, length)
      case None => Err(Aborted(Records.ArithmeticOverflow))
      case Some(expired_at) => Ok(d.(state := LoanActive(total_amount, borrowed_amount, start, expired_at, lender)))
  }

  /** `repay`: an active loan becomes repaid, keeping its lender and recording what the lender may withdraw. */
  function Repay(d: NFTDeposit, lender_withdrawable: u64): (r: Result<NFTDeposit, DepositFailure>)
    ensures r.Ok? <==> d.state.LoanActive?
    ensures r.Ok? ==> r.value.deposit_id == d.deposit_id &&
                      r.value.state == LoanRepayed(lender_withdrawable, d.state.lender)
    ensures r.Err? ==> r.error == Refused(LoanNotActive)
  {
    match d.state
    case LoanActive(_, _, _, _, lender) => Ok(d.(state := LoanRepayed(lender_withdrawable, lender)))
    case _ => Err(Refused(LoanNotActive))
  }

  /** `liquidate`: an active loan becomes liquidated. */
  function Liquidate(d: NFTDeposit): (r: Result<NFTDeposit, DepositFailure>)
    ensures r.Ok? <==> d.state.LoanActive?
    ensures r.Ok? ==> r.value.deposit_id == d.deposit_id && r.value.state == LoanLiquidated
    ensures r.Err? ==> r.error == Refused(LoanNotActive)
  {
    match d.state
    case LoanActive(_, _, _, _, _) => Ok(d.(state := LoanLiquidated))
    case _ => Err(Refused(LoanNotActive))
  }

  /** A terminal deposit refuses every operation. */
  lemma TerminalStatesAreFinal(d: NFTDeposit, lender: Pubkey, total_amount: u64, borrowed_amount: u64,
                               start: i64, length: i64, lender_withdrawable: u64)
    requires Terminal(d.state)
    ensures Withdraw(d).Err?
    ensures StartBorrow(d, lender, total_amount, borrowed_amount, start, length).Err?
    ensures Repay(d, lender_withdrawable).Err?
    ensures Liquidate(d).Err?
  {
  }

  /** The operations that can be applied to a deposit record. */
  datatype DepositOp =
    | WithdrawOp
    | StartBorrowOp(lender: Pubkey, total_amount: u64, borrowed_amount: u64, start: i64, length: i64)
    | RepayOp(lender_withdrawable: u64)
    | LiquidateOp

  function Apply(d: NFTDeposit, op: DepositOp): Result<NFTDeposit, DepositFailure> {
    match op
    case WithdrawOp => Withdraw(d)
    case StartBorrowOp(lender, total, borrowed, start, length) => StartBorrow(d, lender, total, borrowed, start, length)
    case RepayOp(w) => Repay(d, w)
    case LiquidateOp => Liquidate(d)
  }

  /** Applies each operation in turn; a failing one leaves the record as it was. */
  function ApplyAll(d: NFTDeposit, ops: seq<DepositOp>): NFTDeposit
    decreases |ops|
  {
    if |ops| == 0 then d
    else
      var r := Apply(d, ops[0]);
      ApplyAll(if r.Ok? then r.value else d, ops[1..])
  }

  /**
   * The states reachable from `a`: itself, anything from a pending deposit, and a
   * repayment to the same lender or a liquidation from an active loan.
   */
  predicate Reaches(a: DepositState, b: DepositState) {
    || a == b
    || a == PendingLoan
    || (a.LoanActive? && ((b.LoanRepayed? && b.lender == a.lender) || b == LoanLiquidated))
  }

  /** Across any sequence of operations the id is kept and the state only moves along `Reaches`. */
  lemma {:induction false} ApplyAllReaches(d: NFTDeposit, ops: seq<DepositOp>)
    ensures ApplyAll(d, ops).deposit_id == d.deposit_id
    ensures Reaches(d.state, ApplyAll(d, ops).state)
    decreases |ops|
  {
    if |ops| > 0 {
      var r := Apply(d, ops[0]);
      var d1 := if r.Ok? then r.value else d;
      ApplyAllReaches(d1, ops[1..]);
    }
  }

  /** A terminal deposit is unchanged by any sequence of operations. */
  lemma {:induction false} TerminalIsAbsorbing(d: NFTDeposit, ops: seq<DepositOp>)
    requires Terminal(d.state)
    ensures ApplyAll(d, ops) == d
    decreases |ops|
  {
    if |ops| > 0 {
      assert Apply(d, ops[0]).Err?;
      TerminalIsAbsorbing(d, ops[1..]);
    }
  }
}

=== FILE: guards.dfy ===
/**
 * How `repay` and `liquidate` share a loan's expiry, and what the handlers do
 * not check about the accounts they are given.
 */
module Guards {
  import opened Results
  import opened Primitives
  import opened Accounts
  import opened Records
  import opened Taker
  import Loans

  /** At every timestamp exactly one of the two time guards lets the call through. */
  lemma TimeGuardsComplement(now: i64, expired_at: i64)
    ensures RepayWindowOpen(now, expired_at) != LiquidationWindowOpen(now, expired_at)
  {
  }

  /** A loan cannot be both repaid and liquidated at the same timestamp. */
  lemma RepayLiquidateExclusive(s: State, rc: RepayAccounts, lc: LiquidateAccounts, now: i64)
    requires rc.loan == lc.loan
    ensures !(Repay(s, rc, now).Ok? && Liquidate(s, lc, now).Ok?)
  {
  }

  /**
   * For an active loan whose accounts are in place, `repay` is refused as
   * `LoanLiquidated` exactly when `liquidate` gets past its expiry check.
   */
  lemma ActiveLoanHasOneWindow(s: State, rc: RepayAccounts, lc: LiquidateAccounts, now: i64)
    requires rc.loan == lc.loan && PoolOf(s).Some?
    requires IsLoanAt(s, rc.loan) && LoanAt(s, rc.loan).state == Active
    requires IsListingAt(s, rc.listing) && IsListingAt(s, lc.listing)
    ensures Repay(s, rc, now) == Err(Taker(LoanLiquidated)) <==> Liquidate(s, lc, now) != Err(Taker(LoanNotExpired))
  {
  }

  /**
   * `repay` does not refuse a loan that is already `Repayed`: inside the window,
   * with a unit lent out and arithmetic that fits, a repaid loan is repaid again.
   * The borrower pays the lender and the pool once more, the loan stays
   * `Repayed`, and one more listing unit becomes available.
   */
  lemma RepayAdmitsRepayedLoan(s: State, rc: RepayAccounts, now: i64)
    requires PoolOf(s).Some? && IsListingAt(s, rc.listing) && IsLoanAt(s, rc.loan)
    requires LoanAt(s, rc.loan).state == Repayed && now <= LoanAt(s, rc.loan).expired_at
    requires Loans.LenderRepayment(LoanAt(s, rc.loan).cash, PoolOf(s).value.interest_rate).Some?
    requires Loans.BasisPointsOf(LoanAt(s, rc.loan).cash, PoolOf(s).value.service_fee_rate).Some?
    requires ListingAt(s, rc.listing).available < ListingAt(s, rc.listing).count
    ensures var r := Repay(s, rc, now);
            var pool := PoolOf(s).value;
            var loan := LoanAt(s, rc.loan);
            && r.Ok?
            && r.value.ledger == s.ledger + [
                 Transfer(rc.borrower_dai_account, rc.lender_dai_account, Key(rc.borrower_wallet),
                          Loans.LenderRepayment(loan.cash, pool.interest_rate).value),
                 Transfer(rc.borrower_dai_account, rc.pool_dai_account, Key(rc.borrower_wallet),
                          Loans.BasisPointsOf(loan.cash, pool.service_fee_rate).value)]
            && IsLoanAt(r.value, rc.loan) && LoanAt(r.value, rc.loan) == loan
            && IsListingAt(r.value, rc.listing)
            && ListingAt(r.value, rc.listing).count == ListingAt(s, rc.listing).count
            && ListingAt(r.value, rc.listing).available == ListingAt(s, rc.listing).available + 1
  {
  }

  /**
   * `liquidate` checks neither the signing wallet nor the destination token
   * account: whether it succeeds, and what it does to the accounts, is the same
   * for every caller, and the released unit goes to whichever account that
   * caller names.
   */
  lemma LiquidateIgnoresCaller(s: State, lc: LiquidateAccounts, other: Pubkey, dest: Address, now: i64)
    ensures var mine := Liquidate(s, lc.(lender_wallet := other, lender_nft_account := dest), now);
            var theirs := Liquidate(s, lc, now);
            && (mine.Ok? <==> theirs.Ok?)
            && (mine.Err? ==> mine.error == theirs.error)
            && (mine.Ok? ==>
                  && mine.value.accounts == theirs.value.accounts
                  && mine.value.ledger == s.ledger + [Transfer(lc.pool_nft_account, dest, PoolAddress(), 1)])
  {
  }
}

=== FILE: key_codec.dfy ===
/**
 * The public-key helpers shared by both instruction decoders: a bare 32-byte key,
 * and an optional key written as a presence byte (0 = absent, 1 = present) followed
 * by the key when present.
 */
module KeyCodec {
  import opened Results
  import opened Primitives

  /** The token-program error the decoders raise (`InvalidInstruction`). */
  datatype CodecError = InvalidInstruction

  /** A key split off the front of the input, and the bytes that follow it. */
  type Split<T> = (T, seq<byte>)

  /** `unpack_pubkey`: the first 32 bytes as a key, or an error when fewer remain. */
  function UnpackPubkey(input: seq<byte>): (r: Result<Split<Pubkey>, CodecError>)
    ensures r.Ok? <==> |input| >= 32
    ensures r.Ok? ==> input == r.value.0 + r.value.1
    ensures r.Err? ==> r.error == InvalidInstruction
  {
    if |input| >= 32 then
      var key: Pubkey := input[..32];
      Ok((key, input[32..]))
    else
      Err(InvalidInstruction)
  }

  /** Decoding a key followed by anything gives back the key and exactly what followed. */
  lemma UnpackPubkeyOfConcat(key: Pubkey, rest: seq<byte>)
    ensures UnpackPubkey(key + rest) == Ok((key, rest))
  {
    assert (key + rest)[..32] == key;
    assert (key + rest)[32..] == rest;
  }

  /** `pack_pubkey_option`: appends the encoding of `value` to `buf`. */
  function PackPubkeyOption(value: Option<Pubkey>, buf: seq<byte>): (r: seq<byte>)
    ensures |r| == |buf| + (if value.Some? then 33 else 1)
    ensures r[..|buf|] == buf
    ensures UnpackPubkeyOption(r[|buf|..]) == Ok((value, []))
  {
    var r := match value
      case Some(key) => buf + [1] + key
      case None => buf + [0];
    assert r[|buf|..] == OptionBytes(value);
    OptionBytesRoundTrip(value, []);
    assert OptionBytes(value) + [] == OptionBytes(value);
    r
  }

  /** The bytes `PackPubkeyOption` appends for `value`. */
  function OptionBytes(value: Option<Pubkey>): seq<byte> {
    match value
    case Some(key) => [1 as byte] + key
    case None => [0]
  }

  /**
   * `unpack_pubkey_option`: a leading 0 is an absent key, a leading 1 followed by at
   * least 32 bytes is a present key; anything else (no byte, another leading byte, or
   * a 1 with fewer than 32 bytes after it) is rejected.
   */
  function UnpackPubkeyOption(input: seq<byte>): (r: Result<Split<Option<Pubkey>>, CodecError>)
    ensures r.Ok? <==> |input| > 0 && (input[0] == 0 || (input[0] == 1 && |input| >= 33))
    ensures r.Ok? ==> input == OptionBytes(r.value.0) + r.value.1
    ensures r.Err? ==> r.error == InvalidInstruction
  {
    if |input| > 0 && input[0] == 0 then
      Ok((None, input[1..]))
    else if |input| > 0 && input[0] == 1 && |input[1..]| >= 32 then
      var key: Pubkey := input[1..][..32];
      assert input == [1 as byte] + key + input[1..][32..];
      Ok((Some(key), input[1..][32..]))
    else
      Err(InvalidInstruction)
  }

  /** Packing an optional key and decoding it, with any tail, gives back the key and the tail. */
  lemma PubkeyOptionRoundTrip(value: Option<Pubkey>, rest: seq<byte>)
    ensures UnpackPubkeyOption(PackPubkeyOption(value, []) + rest) == Ok((value, rest))
  {
    assert PackPubkeyOption(value, []) == OptionBytes(value);
    OptionBytesRoundTrip(value, rest);
  }

  lemma OptionBytesRoundTrip(value: Option<Pubkey>, rest: seq<byte>)
    ensures UnpackPubkeyOption(OptionBytes(value) + rest) == Ok((value, rest))
  {
    var input := OptionBytes(value) + rest;
    match value
    case None =>
      assert input[1..] == rest;
    case Some(key) =>
      assert input[1..] == key + rest;
      UnpackPubkeyOfConcat(key, rest);
  }
}

=== FILE: legacy_codec.dfy ===
/**
 * The earlier instruction wire format of `program/`: the only instruction is
 * `DepositNFT`, tag 0 followed by its 32-byte token id; bytes after the key are
 * ignored.
 */
module LegacyCodec {
  import opened Results
  import opened Primitives
  import opened KeyCodec

  datatype LegacyInstruction = DepositNFT(token_id: Pubkey)

  /** `TakerInstruction::unpack` of the earlier program. */
  function Unpack(input: seq<byte>): (r: Result<LegacyInstruction, CodecError>)
    ensures r.Ok? <==> |input| >= 33 && input[0] == 0
    ensures r.Ok? ==> r.value.token_id == input[1..33]
    ensures r.Err? ==> r.error == InvalidInstruction
  {
    if |input| == 0 then Err(InvalidInstruction)
    else
      var tag, rest := input[0], input[1..];
      match tag
      case 0 =>
        var (key, _) :- UnpackPubkey(rest);
        assert key == input[1..33];
        Ok(DepositNFT(key))
      case _ => Err(InvalidInstruction)
  }

  /** `TakerInstruction::pack` of the earlier program: 33 bytes that decode back. */
  function Pack(i: LegacyInstruction): (r: seq<byte>)
    ensures |r| == 33 && r[0] == 0
    ensures Unpack(r) == Ok(i)
  {
    assert ([0 as byte] + i.token_id)[1..33] == i.token_id;
    [0 as byte] + i.token_id
  }

  /** A packed instruction followed by any trailing bytes decodes back to itself. */
  lemma UnpackPackWithTail(i: LegacyInstruction, tail: seq<byte>)
    ensures Unpack(Pack(i) + tail) == Ok(i)
  {
    var input := Pack(i) + tail;
    assert input[0] == 0;
    assert input[1..33] == Pack(i)[1..33];
  }

  /** Two decodable inputs give the same instruction exactly when their first 33 bytes agree. */
  lemma DecodedInputsShareEncoding(a: seq<byte>, b: seq<byte>)
    requires Unpack(a).Ok? && Unpack(b).Ok?
    ensures Unpack(a) == Unpack(b) <==> a[..33] == b[..33]
  {
    assert a[..33] == [a[0]] + a[1..33];
    assert b[..33] == [b[0]] + b[1..33];
  }
}

=== FILE: lifecycle.dfy ===
/**
 * Sequences of instructions. Each instruction is one atomic transaction: a
 * failing one leaves the state as it was. The lemmas here relate many
 * transactions: the listing invariant, one loan per key, the loan state
 * machine, and the immutability of the pool.
 */
module Lifecycle {
  import opened Results
  import opened Primitives
  import opened Accounts
  import opened Records
  import opened Taker

  datatype Op =
    | InitializeOp(init: InitializeAccounts)
    | DepositNFTOp(deposit: DepositNFTAccounts, count: u64)
    | WithdrawNFTOp(withdraw: WithdrawNFTAccounts, count: u64)
    | BidOp(bid: BidAccounts, price: u64, qty: u64)
    | CancelBidOp(cancel: CancelBidAccounts, revoke: bool)
    | BorrowOp(borrow: BorrowAccounts, loan_id: Pubkey, amount: u64, now: i64)
    | RepayOp(repay: RepayAccounts, now: i64)
    | LiquidateOp(liquidate: LiquidateAccounts, now: i64)

  /** The outcome of submitting `op` in state `s`. */
  function Submit(s: State, op: Op): Result<State, Failure> {
    match op
    case InitializeOp(ctx) => Initialize(s, ctx)
    case DepositNFTOp(ctx, count) => DepositNFT(s, ctx, count)
    case WithdrawNFTOp(ctx, count) => WithdrawNFT(s, ctx, count)
    case BidOp(ctx, price, qty) => PlaceBid(s, ctx, price, qty)
    case CancelBidOp(ctx, revoke) => CancelBid(s, ctx, revoke)
    case BorrowOp(ctx, loan_id, amount, now) => Borrow(s, ctx, loan_id, amount, now)
    case RepayOp(ctx, now) => Repay(s, ctx, now)
    case LiquidateOp(ctx, now) => Liquidate(s, ctx, now)
  }

  /** The state after the transaction `op`: committed on success, untouched on failure. */
  function Step(s: State, op: Op): State {
    var r := Submit(s, op);
    if r.Ok? then r.value else s
  }

  function Run(s: State, ops: seq<Op>): State
    decreases |ops|
  {
    if |ops| == 0 then s else Run(Step(s, ops[0]), ops[1..])
  }

  /** Every listing in the store has no more available than deposited. */
  predicate Valid(s: State) {
    forall a | a in s.accounts && s.accounts[a].ListingAccount? :: ListingOk(s.accounts[a].listing)
  }

  /** A single transaction keeps every listing's `available <= count`. */
  lemma StepKeepsValid(s: State, op: Op)
    requires Valid(s)
    ensures Valid(Step(s, op))
  {
    var r := Submit(s, op);
    if r.Ok? {
      var t := r.value;
      forall a | a in t.accounts && t.accounts[a].ListingAccount?
        ensures ListingOk(t.accounts[a].listing)
      {
        if a in s.accounts && t.accounts[a] == s.accounts[a] {
        } else {
          match op
          case DepositNFTOp(ctx, count) =>
            if count > 0 {
              assert a == ctx.listing;
              assert ListingOk(ListingOrZero(s, a));
            }
          case WithdrawNFTOp(ctx, _) =>
            assert a == ctx.listing;
          case BorrowOp(ctx, _, _, _) =>
            assert a == ctx.listing;
          case RepayOp(ctx, _) =>
            assert a == ctx.listing;
          case LiquidateOp(ctx, _) =>
            assert a == ctx.listing;
          case _ =>
        }
      }
    }
  }

  /** Any sequence of transactions keeps every listing's `available <= count`. */
  lemma {:induction false} RunKeepsValid(s: State, ops: seq<Op>)
    requires Valid(s)
    ensures Valid(Run(s, ops))
    decreases |ops|
  {
    if |ops| > 0 {
      StepKeepsValid(s, ops[0]);
      RunKeepsValid(Step(s, ops[0]), ops[1..]);
    }
  }

  /** No transaction frees an account. */
  lemma StepNeverDeallocates(s: State, op: Op)
    ensures s.accounts.Keys <= Step(s, op).accounts.Keys
  {
  }

  /** The loan address `op` creates, if it is a borrow that commits. */
  function CreatedLoan(s: State, op: Op): Option<Address> {
    if op.BorrowOp? && Submit(s, op).Ok? then Some(op.borrow.loan) else None
  }

  /** The loan addresses created along a run, in order. */
  function Creations(s: State, ops: seq<Op>): seq<Address>
    decreases |ops|
  {
    if |ops| == 0 then []
    else
      var here := match CreatedLoan(s, ops[0]) case Some(a) => [a] case None => [];
      here + Creations(Step(s, ops[0]), ops[1..])
  }

  /** A loan a transaction creates was unallocated before it and is allocated after. */
  lemma CreatedLoanIsNew(s: State, op: Op)
    ensures CreatedLoan(s, op).Some? ==>
              CreatedLoan(s, op).value !in s.accounts && CreatedLoan(s, op).value in Step(s, op).accounts
  {
  }

  /** Every loan created along a run was unallocated at the start and is allocated at the end. */
  lemma {:induction false} CreationsAreFresh(s: State, ops: seq<Op>)
    ensures forall a | a in Creations(s, ops) :: a !in s.accounts && a in Run(s, ops).accounts
    decreases |ops|
  {
    if |ops| > 0 {
      var s1 := Step(s, ops[0]);
      CreationsAreFresh(s1, ops[1..]);
      RunNeverDeallocates(s1, ops[1..]);
      StepNeverDeallocates(s, ops[0]);
      CreatedLoanIsNew(s, ops[0]);
    }
  }

  /**
   * No loan address is created twice along a run: one loan per
   * (mint, borrower, lender, loan id).
   */
  lemma {:induction false} OneLoanPerKey(s: State, ops: seq<Op>)
    ensures forall i, j | 0 <= i < j < |Creations(s, ops)| :: Creations(s, ops)[i] != Creations(s, ops)[j]
    decreases |ops|
  {
    if |ops| > 0 {
      var s1 := Step(s, ops[0]);
      var rest := Creations(s1, ops[1..]);
      OneLoanPerKey(s1, ops[1..]);
      var created := Creations(s, ops);
      match CreatedLoan(s, ops[0])
      case None =>
        assert created == rest;
      case Some(a) =>
        assert created == [a] + rest;
        CreationsAreFresh(s1, ops[1..]);
        CreatedLoanIsNew(s, ops[0]);
        assert a !in rest;
        forall i, j | 0 <= i < j < |created|
          ensures created[i] != created[j]
        {
          if i == 0 {
            assert created[j] == rest[j - 1];
          } else {
            assert created[i] == rest[i - 1] && created[j] == rest[j - 1];
          }
        }
    }
  }

  /** No run frees an account. */
  lemma {:induction false} RunNeverDeallocates(s: State, ops: seq<Op>)
    ensures s.accounts.Keys <= Run(s, ops).accounts.Keys
    decreases |ops|
  {
    if |ops| > 0 {
      StepNeverDeallocates(s, ops[0]);
      RunNeverDeallocates(Step(s, ops[0]), ops[1..]);
    }
  }

  /**
   * The loan states a loan can move to: `Active` to `Repayed` or `Liquidated`,
   * and `Finalized` to `Repayed` because `repay` refuses only liquidated loans.
   */
  predicate StateReach(x: LoanState, y: LoanState) {
    x == y || (x == Active && (y == Repayed || y == Liquidated)) || (x == Finalized && y == Repayed)
  }

  predicate LoanEvolves(a: Loan, b: Loan) {
    SameTerms(a, b) && StateReach(a.state, b.state)
  }

  /** A loan stays a loan across one transaction, keeps its terms, and moves only along `StateReach`. */
  lemma StepLoanEvolves(s: State, op: Op, a: Address)
    requires IsLoanAt(s, a)
    ensures IsLoanAt(Step(s, op), a) && LoanEvolves(LoanAt(s, a), LoanAt(Step(s, op), a))
  {
    var r := Submit(s, op);
    if r.Ok? && r.value.accounts[a] != s.accounts[a] {
      match op
      case RepayOp(ctx, _) =>
        assert a == ctx.loan;
      case LiquidateOp(ctx, _) =>
        assert a == ctx.loan;
      case _ =>
    }
  }

  /** Across any run, a loan keeps its terms and its state only moves forward along `StateReach`. */
  lemma {:induction false} RunLoanEvolves(s: State, ops: seq<Op>, a: Address)
    requires IsLoanAt(s, a)
    ensures IsLoanAt(Run(s, ops), a) && LoanEvolves(LoanAt(s, a), LoanAt(Run(s, ops), a))
    decreases |ops|
  {
    if |ops| > 0 {
      var s1 := Step(s, ops[0]);
      StepLoanEvolves(s, ops[0], a);
      RunLoanEvolves(s1, ops[1..], a);
    }
  }

  /** A liquidated loan stays liquidated forever: it can be neither repaid nor liquidated again. */
  lemma LiquidatedIsFinal(s: State, ops: seq<Op>, a: Address)
    requires IsLoanAt(s, a) && LoanAt(s, a).state == Liquidated
    ensures IsLoanAt(Run(s, ops), a) && LoanAt(Run(s, ops), a) == LoanAt(s, a)
  {
    RunLoanEvolves(s, ops, a);
  }

  predicate NoFinalized(s: State) {
    forall a | a in s.accounts && s.accounts[a].LoanAccount? :: s.accounts[a].loan.state != Finalized
  }

  /** No instruction assigns `Finalized`, neither to a new loan nor to an existing one. */
  lemma {:induction false} NeverFinalized(s: State, ops: seq<Op>)
    requires NoFinalized(s)
    ensures NoFinalized(Run(s, ops))
    decreases |ops|
  {
    if |ops| > 0 {
      var s1 := Step(s, ops[0]);
      forall a | a in s1.accounts && s1.accounts[a].LoanAccount?
        ensures s1.accounts[a].loan.state != Finalized
      {
        if IsLoanAt(s, a) {
          StepLoanEvolves(s, ops[0], a);
        } else {
          assert ops[0].BorrowOp? && a == ops[0].borrow.loan;
        }
      }
      NeverFinalized(s1, ops[1..]);
    }
  }

  /** No transaction rewrites an initialised pool: `initialize` refuses, and the others never write the pool address. */
  lemma StepKeepsPool(s: State, op: Op)
    requires PoolOf(s).Some?
    ensures PoolOf(Step(s, op)) == PoolOf(s)
  {
    var r := Submit(s, op);
    if r.Ok? {
      match op
      case InitializeOp(ctx) => assert false;
      case DepositNFTOp(ctx, count) => assert count > 0 ==> ctx.listing != PoolAddress();
      case WithdrawNFTOp(ctx, _) => assert ctx.listing != PoolAddress();
      case BidOp(ctx, _, qty) => assert qty > 0 ==> ctx.bid != PoolAddress();
      case CancelBidOp(ctx, _) => assert ctx.bid != PoolAddress();
      case BorrowOp(ctx, _, _, _) => assert ctx.loan !in s.accounts;
      case RepayOp(ctx, _) => assert IsLoanAt(s, ctx.loan);
      case LiquidateOp(ctx, _) => assert IsLoanAt(s, ctx.loan);
    }
  }

  /** Once initialised, the pool record never changes. */
  lemma {:induction false} PoolImmutable(s: State, ops: seq<Op>)
    requires PoolOf(s).Some?
    ensures PoolOf(Run(s, ops)) == PoolOf(s)
    decreases |ops|
  {
    if |ops| > 0 {
      StepKeepsPool(s, ops[0]);
      PoolImmutable(Step(s, ops[0]), ops[1..]);
    }
  }
}

=== FILE: listings.dfy ===
/**
 * Listings: the per-(mint, wallet) record of deposited and available collateral.
 * `Ensure` follows `NFTListing::ensure`. The mutators the instruction handlers
 * call are not in `nft_listing.rs`: `Deposit`, `Withdraw`, `BorrowSuccess` and
 * `RepaySuccess` follow a copy of that file kept beside it, with the error renamed
 * to the `EmptyNFTReserve` of the final error enum; `liquidate(n)` is in neither
 * file, so `Liquidate` is ASSUMED to share `Withdraw`'s guard and effect.
 */
module Listings {
  import opened Results
  import opened Primitives
  import opened Accounts
  import opened Records

  /**
   * Fetch-or-create: the supplied address must be the one derived from
   * (mint, wallet); an unallocated address yields a zeroed listing, an allocated
   * one yields the record stored there.
   */
  function Ensure(accounts: map<Address, Account>, mint: Pubkey, wallet: Pubkey, supplied: Address): (r: Result<Listing, Failure>)
    ensures r == Err(Taker(NFTListingAddressNotCorrect)) <==> supplied != ListingAddress(mint, wallet)
    ensures supplied == ListingAddress(mint, wallet) && supplied !in accounts ==> r == Ok(Listing(0, 0))
    ensures supplied == ListingAddress(mint, wallet) && supplied in accounts ==>
              (r.Ok? <==> accounts[supplied].ListingAccount?) &&
              (r.Ok? ==> r.value == accounts[supplied].listing)
    ensures r.Err? && supplied == ListingAddress(mint, wallet) ==> r.error == Abort(AccountNotDeserializable)
  {
    if supplied != ListingAddress(mint, wallet) then Err(Taker(NFTListingAddressNotCorrect))
    else if supplied !in accounts then Ok(Listing(0, 0))
    else match accounts[supplied]
      case ListingAccount(l) => Ok(l)
      case _ => Err(Abort(AccountNotDeserializable))
  }

  /** Once the listing `Ensure` returned is stored, `Ensure` returns it again unchanged. */
  lemma EnsureIdempotent(accounts: map<Address, Account>, mint: Pubkey, wallet: Pubkey, supplied: Address)
    requires Ensure(accounts, mint, wallet, supplied).Ok?
    ensures var l := Ensure(accounts, mint, wallet, supplied).value;
            Ensure(accounts[supplied := ListingAccount(l)], mint, wallet, supplied) == Ok(l)
  {
  }

  /** `Ensure` looks at no account but the one at the (mint, wallet) address. */
  lemma EnsureReadsOnlyItsKey(a1: map<Address, Account>, a2: map<Address, Account>, mint: Pubkey, wallet: Pubkey, supplied: Address)
    requires var k := ListingAddress(mint, wallet);
             (k in a1 <==> k in a2) && (k in a1 ==> a1[k] == a2[k])
    ensures Ensure(a1, mint, wallet, supplied) == Ensure(a2, mint, wallet, supplied)
  {
  }

  /** `deposit(n)`: both counters grow by `n`; a counter leaving `u64` aborts. */
  function Deposit(l: Listing, n: u64): (r: Result<Listing, Failure>)
    ensures r.Ok? <==> l.count + n <= U64_MAX && l.available + n <= U64_MAX
    ensures r.Ok? ==> r.value.count == l.count + n && r.value.available == l.available + n
    ensures r.Err? ==> r.error == Abort(ArithmeticOverflow)
  {
    if l.count + n > U64_MAX || l.available + n > U64_MAX then Err(Abort(ArithmeticOverflow))
    else Ok(Listing(l.count + n, l.available + n))
  }

  /**
   * `withdraw(n)`: refused with `NFTOverdrawn` unless `n` units are available;
   * `count` dropping below zero (impossible while `ListingOk` holds) aborts.
   */
  function Withdraw(l: Listing, n: u64): (r: Result<Listing, Failure>)
    ensures r.Ok? <==> n <= l.available && n <= l.count
    ensures r.Ok? ==> r.value.count == l.count - n && r.value.available == l.available - n
    ensures n > l.available ==> r == Err(Taker(NFTOverdrawn))
    ensures ListingOk(l) ==> (r.Err? <==> r == Err(Taker(NFTOverdrawn)))
  {
    if n > l.available then Err(Taker(NFTOverdrawn))
    else if n > l.count then Err(Abort(ArithmeticOverflow))
    else Ok(Listing(l.count - n, l.available - n))
  }

  /** `borrow_success()`: one available unit becomes collateral. */
  function BorrowSuccess(l: Listing): (r: Result<Listing, Failure>)
    ensures r.Ok? <==> l.available > 0
    ensures r.Ok? ==> r.value.count == l.count && r.value.available == l.available - 1
    ensures r.Err? ==> r.error == Taker(EmptyNFTReserve)
  {
    if l.available == 0 then Err(Taker(EmptyNFTReserve))
    else Ok(l.(available := l.available - 1))
  }

  /**
   * `repay_success()`: one unit becomes available again; the assertion that
   * `available` stays within `count` aborts the transaction otherwise.
   */
  function RepaySuccess(l: Listing): (r: Result<Listing, Failure>)
    ensures r.Ok? <==> l.available < l.count
    ensures r.Ok? ==> r.value.count == l.count && r.value.available == l.available + 1
    ensures r.Err? ==> r.error.Abort?
    ensures l.available == U64_MAX ==> r == Err(Abort(ArithmeticOverflow))
    ensures l.count <= l.available < U64_MAX ==> r == Err(Abort(AssertionFailed))
  {
    if l.available == U64_MAX then Err(Abort(ArithmeticOverflow))
    else if l.available + 1 > l.count then Err(Abort(AssertionFailed))
    else Ok(l.(available := l.available + 1))
  }

  /** `liquidate(n)` (assumed): `n` units leave the listing for good. */
  function Liquidate(l: Listing, n: u64): (r: Result<Listing, Failure>)
    ensures r.Ok? <==> n <= l.available && n <= l.count
    ensures r.Ok? ==> r.value.count == l.count - n && r.value.available == l.available - n
    ensures n > l.available ==> r == Err(Taker(NFTOverdrawn))
  {
    Withdraw(l, n)
  }

  /** Withdrawing what was just deposited restores the listing. */
  lemma WithdrawUndoesDeposit(l: Listing, n: u64)
    requires ListingOk(l) && Deposit(l, n).Ok?
    ensures ListingOk(Deposit(l, n).value)
    ensures Withdraw(Deposit(l, n).value, n) == Ok(l)
  {
  }

  /** Repaying after a borrow restores the listing. */
  lemma RepayUndoesBorrow(l: Listing)
    requires ListingOk(l) && BorrowSuccess(l).Ok?
    ensures RepaySuccess(BorrowSuccess(l).value) == Ok(l)
  {
  }

  /** Every mutator keeps `available <= count`. */
  lemma MutatorsKeepListingOk(l: Listing, n: u64)
    requires ListingOk(l)
    ensures Deposit(l, n).Ok? ==> ListingOk(Deposit(l, n).value)
    ensures Withdraw(l, n).Ok? ==> ListingOk(Withdraw(l, n).value)
    ensures BorrowSuccess(l).Ok? ==> ListingOk(BorrowSuccess(l).value)
    ensures RepaySuccess(l).Ok? ==> ListingOk(RepaySuccess(l).value)
    ensures Liquidate(l, n).Ok? ==> ListingOk(Liquidate(l, n).value)
  {
  }
}

=== FILE: loans.dfy ===
/**
 * Loans (`NFTLoan`): creation at the address derived from
 * (mint, borrower, lender, loan id), the two state changes, and the repayment
 * arithmetic the `repay` instruction performs on a loan's principal.
 */
module Loans {
  import opened Results
  import opened Primitives
  import opened Accounts
  import opened Records

  /**
   * `start_borrow`: the supplied address must be the derived one, nothing may be
   * allocated there yet, and the new loan is active from `start` for `length`
   * seconds.
   */
  function StartBorrow(accounts: map<Address, Account>, mint: Pubkey, borrower: Pubkey, lender: Pubkey,
                       loan_id: Pubkey, supplied: Address, cash: u64, start: i64, length: i64): (r: Result<Loan, Failure>)
    ensures r == Err(Taker(NFTLoanAddressNotCorrect)) <==> supplied != LoanAddress(mint, borrower, lender, loan_id)
    ensures supplied == LoanAddress(mint, borrower, lender, loan_id) && supplied in accounts ==>
              r == Err(Taker(LoanAlreadyExist))
    ensures r.Ok? ==> supplied == LoanAddress(mint, borrower, lender, loan_id) && supplied !in accounts
    ensures r.Ok? ==> r.value.cash == cash && r.value.started_at == start &&
                      r.value.expired_at == start + length && r.value.state == Active
    ensures supplied == LoanAddress(mint, borrower, lender, loan_id) && supplied !in accounts ==>
              (r.Ok? <==> I64_MIN <= start + length <= I64_MAX)
  {
    if supplied != LoanAddress(mint, borrower, lender, loan_id) then Err(Taker(NFTLoanAddressNotCorrect))
    else if supplied in accounts then Err(Taker(LoanAlreadyExist))
    else match CheckedAddI64(start, length)
      case None => Err(Abort(ArithmeticOverflow))
      case Some(expired_at) => Ok(Loan(cash, start, expired_at, Active))
  }

  /** `repay()`: the loan becomes `Repayed`, whatever its state; its terms are kept. */
  function Repay(loan: Loan): (r: Loan)
    ensures r.state == Repayed && SameTerms(loan, r)
  {
    loan.(state := Repayed)
  }

  /** `liquidate()`: the loan becomes `Liquidated`, whatever its state; its terms are kept. */
  function Liquidate(loan: Loan): (r: Loan)
    ensures r.state == Liquidated && SameTerms(loan, r)
  {
    loan.(state := Liquidated)
  }

  /**
   * `amount.checked_mul(rate).unwrap().checked_div(10000).unwrap()`: the floor of
   * `rate` basis points of `amount`; `None` when the product overflows (the unwrap
   * aborts).
   */
  function BasisPointsOf(amount: u64, rate: u64): (r: Option<u64>)
    ensures r.Some? <==> amount * rate <= U64_MAX
    ensures r.Some? ==> r.value * 10000 <= amount * rate < r.value * 10000 + 10000
  {
    match CheckedMul(amount, rate)
    case None => None
    case Some(p) => Some(p / 10000)
  }

  /** What the lender receives on repayment: principal plus floored interest, checked. */
  function LenderRepayment(cash: u64, interest_rate: u64): (r: Option<u64>)
    ensures r.Some? <==> BasisPointsOf(cash, interest_rate).Some? &&
                         cash + BasisPointsOf(cash, interest_rate).value <= U64_MAX
    ensures r.Some? ==> r.value >= cash && (r.value - cash) * 10000 <= cash * interest_rate < (r.value - cash + 1) * 10000
  {
    match BasisPointsOf(cash, interest_rate)
    case None => None
    case Some(interest) => CheckedAdd(cash, interest)
  }
}

=== FILE: pools.dfy ===
/** Construction of the singleton pool record (`NFTPool::new`). */
module Pools {
  import opened Primitives
  import opened Records

  const DEFAULT_DEPOSIT_INCENTIVE: u64 := 100
  const DEFAULT_MAX_LOAN_DURATION: i64 := 30
  const DEFAULT_SERVICE_FEE_RATE: u64 := 500   // 5%
  const DEFAULT_INTEREST_RATE: u64 := 100      // 1%

  /**
   * A fresh pool: the identities come from the accounts given to `initialize`,
   * the economic parameters are the defaults.
   */
  function NewPool(authority: Pubkey, tkr_mint: Pubkey, tai_mint: Pubkey, dai_mint: Pubkey, bump: byte): (p: Pool)
    ensures p.authority == authority && p.bump_seed == bump
    ensures p.tkr_mint == tkr_mint && p.tai_mint == tai_mint && p.dai_mint == dai_mint
    ensures p.deposit_incentive == 100 && p.max_loan_duration == 30
    ensures p.service_fee_rate == 500 && p.interest_rate == 100
  {
    Pool(bump, authority, tkr_mint, tai_mint, dai_mint,
         DEFAULT_DEPOSIT_INCENTIVE, DEFAULT_MAX_LOAN_DURATION,
         DEFAULT_SERVICE_FEE_RATE, DEFAULT_INTEREST_RATE)
  }
}

=== FILE: primitives.dfy ===
/** Machine integers, bytes and public keys as the program sees them. */
module Primitives {
  import opened Results

  const U64_MAX: int := 0xFFFF_FFFF_FFFF_FFFF
  const I64_MIN: int := -0x8000_0000_0000_0000
  const I64_MAX: int := 0x7FFF_FFFF_FFFF_FFFF

  newtype byte = b: int | 0 <= b < 256

  type u64 = x: int | 0 <= x <= U64_MAX

  /** Unix timestamps and durations (`UnixTimestamp` is an `i64`). */
  type i64 = x: int | I64_MIN <= x <= I64_MAX

  /** A 32-byte public key. */
  type Pubkey = s: seq<byte> | |s| == 32 witness seq(32, _ => 0 as byte)

  /** `a.checked_mul(b)`: `None` exactly when the product leaves `u64`. */
  function CheckedMul(a: u64, b: u64): (r: Option<u64>)
    ensures r.Some? <==> a * b <= U64_MAX
    ensures r.Some? ==> r.value == a * b
  {
    if a * b <= U64_MAX then Some(a * b) else None
  }

  /** `a.checked_add(b)` on `u64`. */
  function CheckedAdd(a: u64, b: u64): (r: Option<u64>)
    ensures r.Some? <==> a + b <= U64_MAX
    ensures r.Some? ==> r.value == a + b
  {
    if a + b <= U64_MAX then Some(a + b) else None
  }

  /** `a + b` on `i64`, `None` on overflow. */
  function CheckedAddI64(a: i64, b: i64): (r: Option<i64>)
    ensures r.Some? <==> I64_MIN <= a + b <= I64_MAX
    ensures r.Some? ==> r.value == a + b
  {
    if I64_MIN <= a + b <= I64_MAX then Some(a + b) else None
  }
}

=== FILE: records.dfy ===
/**
 * The account records of the taker program (`NFTPool`, `NFTListing`, `NFTBid`,
 * `NFTLoan`), its error enum, and the ledger of token movements the instructions
 * request from the token program.
 */
module Records {
  import opened Primitives
  import opened Accounts

  datatype LoanState = Active | Liquidated | Repayed | Finalized

  datatype Pool = Pool(
    bump_seed: byte,
    authority: Pubkey,
    tkr_mint: Pubkey,
    tai_mint: Pubkey,
    dai_mint: Pubkey,
    deposit_incentive: u64,
    max_loan_duration: i64,
    service_fee_rate: u64,   // basis points
    interest_rate: u64)      // basis points

  /** `available` counts the deposited units that are not collateralising a loan. */
  datatype Listing = Listing(count: u64, available: u64)

  datatype Bid = Bid(price: u64, qty: u64)

  datatype Loan = Loan(cash: u64, started_at: i64, expired_at: i64, state: LoanState)

  /** `TakerError` of the program, in declaration order. */
  datatype TakerError =
    | NotAuhorized
    | ContractAddressNotCorrect
    | NFTListingAddressNotCorrect
    | NFTBidAddressNotCorrect
    | NFTLoanAddressNotCorrect
    | NFTOverdrawn
    | EmptyNFTReserve
    | NFTOvertrade
    | NFTOverbid
    | NFTBorrowExceedBid
    | BorrowAlreadyStarted
    | LoanLiquidated
    | LoanNotExpired
    | LoanAlreadyExist
    | LoanFinialized
    | LoanNotActive

  /** Ways a transaction aborts other than a `TakerError`. */
  datatype AbortReason =
    | ArithmeticOverflow        // an integer operation left its type
    | AssertionFailed           // an `assert!` / `assert_eq!` failed
    | AccountNotDeserializable  // a typed account is absent or holds another record
    | AccountAlreadyInUse       // the system program refused to create an allocated account

  datatype Failure = Taker(code: TakerError) | Abort(reason: AbortReason)

  /** What is stored at an allocated address. */
  datatype Account =
    | PoolAccount(pool: Pool)
    | ListingAccount(listing: Listing)
    | BidAccount(bid: Bid)
    | LoanAccount(loan: Loan)
    | OtherAccount   // allocated, but not a record of this program

  /** A token-program call the instruction makes, in call order. */
  datatype Movement =
    | Transfer(from: Address, to: Address, authority: Address, amount: u64)
    | Approve(account: Address, delegate: Address, amount: u64)
    | Revoke(account: Address)

  /** The listing invariant: never more available than deposited. */
  predicate ListingOk(l: Listing) {
    l.available <= l.count
  }

  /** A loan's terms: everything but its state. */
  predicate SameTerms(a: Loan, b: Loan) {
    a.cash == b.cash && a.started_at == b.started_at && a.expired_at == b.expired_at
  }
}

=== FILE: results.dfy ===
/** Failure-compatible wrappers used by every transition and codec. */
module Results {

  datatype Option<+T> = None | Some(value: T)

  /** The outcome of an instruction, a decoder or a record mutator. */
  datatype Result<+T, +E> = Ok(value: T) | Err(error: E) {

    predicate IsFailure() {
      Err?
    }

    function PropagateFailure<U>(): Result<U, E>
      requires Err?
    {
      Err(error)
    }

    function Extract(): T
      requires Ok?
    {
      value
    }
  }
}

=== FILE: scenarios.dfy ===
/**
 * Concrete runs of the lending cycle: a pool with the default rates, one deposit,
 * one bid, a loan that is repaid, a duplicate loan id, an early liquidation, and
 * two runs that show what the handlers do not check.
 */
module Scenarios {
  import opened Results
  import opened Primitives
  import opened Accounts
  import opened Records
  import opened Taker
  import Loans

  function KeyOf(b: byte): Pubkey {
    seq(32, _ => b)
  }

  const Owner: Pubkey := KeyOf(1)
  const Lender: Pubkey := KeyOf(2)
  const Mallory: Pubkey := KeyOf(3)
  const NftMint: Pubkey := KeyOf(10)
  const TkrMint: Pubkey := KeyOf(11)
  const TaiMint: Pubkey := KeyOf(12)
  const DaiMint: Pubkey := KeyOf(13)
  const LoanId: Pubkey := KeyOf(20)
  const Nft: Mint := Mint(NftMint, 5, 0)
  const T0: i64 := 1_000_000

  const Empty: State := State(map[], [])

  const Init: InitializeAccounts := InitializeAccounts(Owner, PoolAddress(), 255, TkrMint, TaiMint, DaiMint)

  function DepositCtx(wallet: Pubkey): DepositNFTAccounts {
    DepositNFTAccounts(wallet, Nft, Key(KeyOf(30)), Key(KeyOf(31)), TkrMint, TokenAccount(Key(KeyOf(32)), TkrMint),
                       Key(KeyOf(33)), ListingAddress(NftMint, wallet))
  }

  const BidCtx: BidAccounts := BidAccounts(Lender, Nft, Key(KeyOf(40)), BidAddress(NftMint, Lender))

  function BorrowCtx(borrower: Pubkey, listing_owner: Pubkey): BorrowAccounts {
    BorrowCtxFor(borrower, listing_owner, LoanId)
  }

  function BorrowCtxFor(borrower: Pubkey, listing_owner: Pubkey, id: Pubkey): BorrowAccounts {
    BorrowAccounts(borrower, Lender, Nft, Key(KeyOf(50)), Key(KeyOf(40)),
                   ListingAddress(NftMint, listing_owner), BidAddress(NftMint, Lender),
                   LoanAddress(NftMint, borrower, Lender, id))
  }

  function RepayCtxFor(id: Pubkey): RepayAccounts {
    RepayAccounts(Owner, Key(KeyOf(50)), Key(KeyOf(40)), Key(KeyOf(60)),
                  ListingAddress(NftMint, Owner), LoanAddress(NftMint, Owner, Lender, id))
  }

  function LiquidateCtxFor(id: Pubkey): LiquidateAccounts {
    LiquidateAccounts(Lender, Nft, Key(KeyOf(31)), Key(KeyOf(70)),
                      ListingAddress(NftMint, Owner), LoanAddress(NftMint, Owner, Lender, id))
  }

  const RepayCtx: RepayAccounts := RepayCtxFor(LoanId)

  const LiquidateCtx: LiquidateAccounts := LiquidateCtxFor(LoanId)

  const SecondLoanId: Pubkey := KeyOf(21)

  const WithdrawCtx: WithdrawNFTAccounts :=
    WithdrawNFTAccounts(Owner, Nft, Key(KeyOf(31)), Key(KeyOf(30)), ListingAddress(NftMint, Owner))

  /** The pool with the default rates, and nothing else allocated. */
  function Pooled(): (s: State)
    ensures Initialize(Empty, Init) == Ok(s)
    ensures PoolOf(s).Some? && PoolOf(s).value.deposit_incentive == 100 && PoolOf(s).value.max_loan_duration == 30
    ensures PoolOf(s).value.interest_rate == 100 && PoolOf(s).value.service_fee_rate == 500
    ensures PoolOf(s).value.tkr_mint == TkrMint
    ensures s.accounts.Keys == {PoolAddress()} && s.ledger == []
  {
    Initialize(Empty, Init).value
  }

  /** `Pooled` after the owner deposits `n` units, up to the mint's supply. */
  function Deposited(n: u64): (s: State)
    requires 1 <= n <= Nft.supply
    ensures DepositNFT(Pooled(), DepositCtx(Owner), n) == Ok(s)
    ensures PoolOf(s) == PoolOf(Pooled())
    ensures IsListingAt(s, RepayCtx.listing) && ListingAt(s, RepayCtx.listing) == Listing(n, n)
    ensures s.accounts.Keys == {PoolAddress(), RepayCtx.listing}
    ensures |s.ledger| == 2 && s.ledger[1].Transfer? && s.ledger[1].amount == 100 * n
  {
    DepositNFT(Pooled(), DepositCtx(Owner), n).value
  }

  /** `Deposited(n)` after the lender bids 1000 for 5 units. */
  function BidPlaced(n: u64): (s: State)
    requires 1 <= n <= Nft.supply
    ensures PlaceBid(Deposited(n), BidCtx, 1000, 5) == Ok(s)
    ensures PoolOf(s) == PoolOf(Pooled())
    ensures IsListingAt(s, RepayCtx.listing) && ListingAt(s, RepayCtx.listing) == Listing(n, n)
    ensures IsBidAt(s, BidCtx.bid) && BidAt(s, BidCtx.bid) == Bid(1000, 5)
    ensures s.accounts.Keys == {PoolAddress(), RepayCtx.listing, BidCtx.bid}
    ensures |s.ledger| == 3 && s.ledger[2] == Approve(Key(KeyOf(40)), PoolAddress(), 5000)
  {
    PlaceBid(Deposited(n), BidCtx, 1000, 5).value
  }

  /** `BidPlaced(n)` after the owner borrows 1000 against the bid under `LoanId`. */
  function Lent(n: u64): (s: State)
    requires 1 <= n <= Nft.supply
    ensures Borrow(BidPlaced(n), BorrowCtx(Owner, Owner), LoanId, 1000, T0) == Ok(s)
    ensures PoolOf(s) == PoolOf(Pooled())
    ensures IsListingAt(s, RepayCtx.listing) && ListingAt(s, RepayCtx.listing) == Listing(n, n - 1)
    ensures IsBidAt(s, BidCtx.bid) && BidAt(s, BidCtx.bid) == Bid(1000, 4)
    ensures IsLoanAt(s, RepayCtx.loan) && LoanAt(s, RepayCtx.loan) == Loan(1000, T0, T0 + 30, Active)
    ensures s.accounts.Keys == {PoolAddress(), RepayCtx.listing, BidCtx.bid, RepayCtx.loan}
    ensures s.ledger[|s.ledger| - 1] == Transfer(Key(KeyOf(40)), Key(KeyOf(50)), PoolAddress(), 1000)
  {
    Borrow(BidPlaced(n), BorrowCtx(Owner, Owner), LoanId, 1000, T0).value
  }

  /**
   * Initialise the pool, deposit one unit (paid the default incentive of 100),
   * bid 1000 for 5 units (5000 delegated), and borrow 1000 against the bid.
   */
  lemma BorrowScenario()
    ensures
      var s1 := Initialize(Empty, Init);
      && s1.Ok?
      && var s2 := DepositNFT(s1.value, DepositCtx(Owner), 1);
      && s2.Ok?
      && ListingAt(s2.value, ListingAddress(NftMint, Owner)) == Listing(1, 1)
      && s2.value.ledger[1].amount == 100
      && var s3 := PlaceBid(s2.value, BidCtx, 1000, 5);
      && s3.Ok?
      && BidAt(s3.value, BidAddress(NftMint, Lender)) == Bid(1000, 5)
      && s3.value.ledger[2] == Approve(Key(KeyOf(40)), PoolAddress(), 5000)
      && var s4 := Borrow(s3.value, BorrowCtx(Owner, Owner), LoanId, 1000, T0);
      && s4.Ok?
      && LoanAt(s4.value, RepayCtx.loan) == Loan(1000, T0, T0 + 30, Active)
      && BidAt(s4.value, BidAddress(NftMint, Lender)).qty == 4
      && ListingAt(s4.value, ListingAddress(NftMint, Owner)).available == 0
  {
    var _ := Lent(1);
  }

  /** The state after `BorrowScenario`: one unit lent out against a 1000 bid. */
  function Borrowed(): (s: State)
    ensures IsLoanAt(s, RepayCtx.loan) && LoanAt(s, RepayCtx.loan) == Loan(1000, T0, T0 + 30, Active)
    ensures PoolOf(s).Some? && IsListingAt(s, RepayCtx.listing) && ListingAt(s, RepayCtx.listing) == Listing(1, 0)
    ensures PoolOf(s).value.interest_rate == 100 && PoolOf(s).value.service_fee_rate == 500
  {
    Lent(1)
  }

  /**
   * Liquidating before expiry is refused as `LoanNotExpired`, even at the expiry
   * instant. One second later the time guard passes, but under the assumed
   * `liquidate(1)` contract the listing has no available unit to give up (the
   * lent unit is not available), so the call is refused as `NFTOverdrawn`.
   */
  lemma EarlyLiquidationRefused()
    ensures Liquidate(Borrowed(), LiquidateCtx, T0) == Err(Taker(LoanNotExpired))
    ensures Liquidate(Borrowed(), LiquidateCtx, T0 + 30) == Err(Taker(LoanNotExpired))
    ensures Liquidate(Borrowed(), LiquidateCtx, T0 + 31) == Err(Taker(NFTOverdrawn))
  {
  }

  /**
   * Repaying on the same day pays the lender 1000 + 10 and the pool 50, marks the
   * loan `Repayed` and makes the unit available again; borrowing again under the
   * same loan id is refused as `LoanAlreadyExist`.
   */
  lemma RepayScenario()
    ensures
      var r := Repay(Borrowed(), RepayCtx, T0);
      && r.Ok?
      && r.value.ledger[|r.value.ledger| - 2] == Transfer(Key(KeyOf(50)), Key(KeyOf(40)), Key(Owner), 1010)
      && r.value.ledger[|r.value.ledger| - 1] == Transfer(Key(KeyOf(50)), Key(KeyOf(60)), Key(Owner), 50)
      && LoanAt(r.value, RepayCtx.loan).state == Repayed
      && ListingAt(r.value, RepayCtx.listing) == Listing(1, 1)
      && Borrow(r.value, BorrowCtx(Owner, Owner), LoanId, 1000, T0) == Err(Taker(LoanAlreadyExist))
  {
    var s := Borrowed();
    assert Loans.LenderRepayment(1000, 100) == Some(1010);
    assert Loans.BasisPointsOf(1000, 500) == Some(50);
    var r := Repay(s, RepayCtx, T0);
    assert r.Ok?;
  }

  /**
   * `borrow` does not check that the listing belongs to the borrower: Mallory
   * borrows against the owner's deposited unit, and the owner's listing loses
   * its availability.
   */
  lemma BorrowAgainstForeignListing()
    ensures
      var r := Borrow(BidPlaced(1), BorrowCtx(Mallory, Owner), LoanId, 1000, T0);
      && r.Ok?
      && ListingAt(r.value, ListingAddress(NftMint, Owner)).available == 0
      && r.value.ledger[|r.value.ledger| - 1] == Transfer(Key(KeyOf(40)), Key(KeyOf(50)), PoolAddress(), 1000)
  {
    var s := BidPlaced(1);
    assert Mallory[0] != Owner[0];
  }

  /** Two units deposited, both lent out under two loan ids. */
  function TwoLoans(): (s: State)
    ensures PoolOf(s).Some? && PoolOf(s).value.interest_rate == 100 && PoolOf(s).value.service_fee_rate == 500
    ensures IsListingAt(s, RepayCtx.listing) && ListingAt(s, RepayCtx.listing) == Listing(2, 0)
    ensures IsLoanAt(s, RepayCtx.loan) && LoanAt(s, RepayCtx.loan) == Loan(1000, T0, T0 + 30, Active)
    ensures IsLoanAt(s, RepayCtxFor(SecondLoanId).loan) && LoanAt(s, RepayCtxFor(SecondLoanId).loan) == Loan(1000, T0, T0 + 30, Active)
  {
    var s1 := Lent(2);
    assert LoanId[0] != SecondLoanId[0];
    var r := Borrow(s1, BorrowCtxFor(Owner, Owner, SecondLoanId), SecondLoanId, 1000, T0);
    assert r.Ok?;
    r.value
  }

  /**
   * Repaying the first loan inside its window, whether it is still active or
   * already repaid, succeeds while a unit is lent out: it makes one more unit
   * available and leaves the second loan alone.
   */
  lemma RepayFreesAnotherUnit(s: State)
    requires PoolOf(s).Some? && PoolOf(s).value.interest_rate == 100 && PoolOf(s).value.service_fee_rate == 500
    requires IsListingAt(s, RepayCtx.listing) && ListingAt(s, RepayCtx.listing).available < ListingAt(s, RepayCtx.listing).count
    requires IsLoanAt(s, RepayCtx.loan) && LoanAt(s, RepayCtx.loan).cash == 1000 && LoanAt(s, RepayCtx.loan).expired_at == T0 + 30
    requires LoanAt(s, RepayCtx.loan).state != Liquidated
    requires IsLoanAt(s, RepayCtxFor(SecondLoanId).loan)
    ensures var r := Repay(s, RepayCtx, T0);
            && r.Ok? && PoolOf(r.value) == PoolOf(s)
            && IsListingAt(r.value, RepayCtx.listing)
            && ListingAt(r.value, RepayCtx.listing).count == ListingAt(s, RepayCtx.listing).count
            && ListingAt(r.value, RepayCtx.listing).available == ListingAt(s, RepayCtx.listing).available + 1
            && IsLoanAt(r.value, RepayCtx.loan) && LoanAt(r.value, RepayCtx.loan) == LoanAt(s, RepayCtx.loan).(state := Repayed)
            && IsLoanAt(r.value, RepayCtxFor(SecondLoanId).loan)
            && LoanAt(r.value, RepayCtxFor(SecondLoanId).loan) == LoanAt(s, RepayCtxFor(SecondLoanId).loan)
  {
    assert LoanId[0] != SecondLoanId[0];
    assert Loans.LenderRepayment(1000, 100) == Some(1010);
    assert Loans.BasisPointsOf(1000, 500) == Some(50);
  }

  /** `TwoLoans` after the first loan is repaid once: one unit is available again. */
  function RepaidOnce(): (s: State)
    ensures Repay(TwoLoans(), RepayCtx, T0) == Ok(s)
    ensures PoolOf(s).Some? && PoolOf(s).value.interest_rate == 100 && PoolOf(s).value.service_fee_rate == 500
    ensures IsListingAt(s, RepayCtx.listing) && ListingAt(s, RepayCtx.listing) == Listing(2, 1)
    ensures IsLoanAt(s, RepayCtx.loan) && LoanAt(s, RepayCtx.loan) == Loan(1000, T0, T0 + 30, Repayed)
    ensures IsLoanAt(s, RepayCtxFor(SecondLoanId).loan) && LoanAt(s, RepayCtxFor(SecondLoanId).loan) == Loan(1000, T0, T0 + 30, Active)
  {
    var s0 := TwoLoans();
    RepayFreesAnotherUnit(s0);
    Repay(s0, RepayCtx, T0).value
  }

  /** `RepaidOnce` after the same loan is repaid again: both units are available. */
  function RepaidTwice(): (s: State)
    ensures Repay(RepaidOnce(), RepayCtx, T0) == Ok(s)
    ensures PoolOf(s).Some? && IsListingAt(s, RepayCtx.listing) && ListingAt(s, RepayCtx.listing) == Listing(2, 2)
    ensures IsLoanAt(s, RepayCtxFor(SecondLoanId).loan) && LoanAt(s, RepayCtxFor(SecondLoanId).loan) == Loan(1000, T0, T0 + 30, Active)
  {
    var s1 := RepaidOnce();
    RepayFreesAnotherUnit(s1);
    Repay(s1, RepayCtx, T0).value
  }

  /** `RepaidTwice` after the owner withdraws both units. */
  function EmptiedListing(): (s: State)
    ensures WithdrawNFT(RepaidTwice(), WithdrawCtx, 2) == Ok(s)
    ensures PoolOf(s).Some? && IsListingAt(s, RepayCtx.listing) && ListingAt(s, RepayCtx.listing) == Listing(0, 0)
    ensures IsLoanAt(s, RepayCtxFor(SecondLoanId).loan) && LoanAt(s, RepayCtxFor(SecondLoanId).loan) == Loan(1000, T0, T0 + 30, Active)
  {
    var r := WithdrawNFT(RepaidTwice(), WithdrawCtx, 2);
    assert r.Ok?;
    r.value
  }

  /**
   * Because `repay` accepts a loan that is already `Repayed`, repaying the first
   * loan twice frees both units while the second loan is still active; the owner
   * then withdraws both (`EmptiedListing`), and the second loan's lender, after
   * expiry, is left with nothing to liquidate.
   */
  lemma DoubleRepayReleasesLentCollateral()
    ensures Liquidate(EmptiedListing(), LiquidateCtxFor(SecondLoanId), T0 + 31) == Err(Taker(NFTOverdrawn))
  {
    var s := EmptiedListing();
    assert LiquidateCtxFor(SecondLoanId).listing == RepayCtx.listing;
    assert LiquidateCtxFor(SecondLoanId).loan == RepayCtxFor(SecondLoanId).loan;
  }
}

=== FILE: taker.dfy ===
/**
 * The instruction handlers of the taker program as atomic transitions over the
 * account store and the ledger of token-program calls. A handler either fails,
 * and the transaction leaves every account and the ledger as they were, or
 * returns the state with all of its effects applied.
 *
 * Anchor deserialises every typed account (`ProgramAccount<..>`) before the
 * handler body runs, so a missing or mistyped pool, listing, bid or loan aborts
 * the transaction ahead of the handler's own checks.
 */
module Taker {
  import opened Results
  import opened Primitives
  import opened Accounts
  import opened Records
  import Pools
  import Listings
  import Bids
  import Loans

  datatype State = State(accounts: map<Address, Account>, ledger: seq<Movement>)

  /** A token mint as the handlers read it. */
  datatype Mint = Mint(key: Pubkey, supply: u64, decimals: byte)

  /** A token account as the handlers read it: its address and its mint. */
  datatype TokenAccount = TokenAccount(address: Address, mint: Pubkey)

  datatype InitializeAccounts = InitializeAccounts(
    pool_owner: Pubkey, pool: Address, bump: byte,
    tkr_mint: Pubkey, tai_mint: Pubkey, dai_mint: Pubkey)

  datatype DepositNFTAccounts = DepositNFTAccounts(
    user_wallet: Pubkey, nft_mint: Mint,
    user_nft_account: Address, pool_nft_account: Address,
    tkr_mint: Pubkey, pool_tkr_account: TokenAccount, user_tkr_account: Address,
    listing: Address)

  datatype WithdrawNFTAccounts = WithdrawNFTAccounts(
    user_wallet: Pubkey, nft_mint: Mint,
    pool_nft_account: Address, user_nft_account: Address, listing: Address)

  datatype BidAccounts = BidAccounts(
    user_wallet: Pubkey, nft_mint: Mint, user_dai_account: Address, bid: Address)

  datatype CancelBidAccounts = CancelBidAccounts(
    user_wallet: Pubkey, nft_mint: Mint, user_dai_account: Address, bid: Address)

  datatype BorrowAccounts = BorrowAccounts(
    borrower_wallet: Pubkey, lender_wallet: Pubkey, nft_mint: Mint,
    borrower_dai_account: Address, lender_dai_account: Address,
    listing: Address, bid: Address, loan: Address)

  datatype RepayAccounts = RepayAccounts(
    borrower_wallet: Pubkey,
    borrower_dai_account: Address, lender_dai_account: Address, pool_dai_account: Address,
    listing: Address, loan: Address)

  datatype LiquidateAccounts = LiquidateAccounts(
    lender_wallet: Pubkey, nft_mint: Mint,
    pool_nft_account: Address, lender_nft_account: Address,
    listing: Address, loan: Address)

  /** The pool record, if the pool account has been initialised. */
  function PoolOf(s: State): Option<Pool> {
    if PoolAddress() in s.accounts && s.accounts[PoolAddress()].PoolAccount? then
      Some(s.accounts[PoolAddress()].pool)
    else None
  }

  predicate IsListingAt(s: State, a: Address) {
    a in s.accounts && s.accounts[a].ListingAccount?
  }

  predicate IsBidAt(s: State, a: Address) {
    a in s.accounts && s.accounts[a].BidAccount?
  }

  predicate IsLoanAt(s: State, a: Address) {
    a in s.accounts && s.accounts[a].LoanAccount?
  }

  function ListingAt(s: State, a: Address): Listing
    requires IsListingAt(s, a)
  {
    s.accounts[a].listing
  }

  function BidAt(s: State, a: Address): Bid
    requires IsBidAt(s, a)
  {
    s.accounts[a].bid
  }

  function LoanAt(s: State, a: Address): Loan
    requires IsLoanAt(s, a)
  {
    s.accounts[a].loan
  }

  /**
   * Frame: no account is deallocated, only the addresses in `changed` may be
   * allocated or rewritten, and every other account keeps its record.
   */
  predicate OnlyChanges(before: State, after: State, changed: set<Address>) {
    && before.accounts.Keys <= after.accounts.Keys
    && after.accounts.Keys <= before.accounts.Keys + changed
    && forall a | a in before.accounts && a !in changed :: after.accounts[a] == before.accounts[a]
  }

  /** The listing `Ensure` starts from: the stored one, or a zeroed one. */
  function ListingOrZero(s: State, a: Address): Listing {
    if IsListingAt(s, a) then s.accounts[a].listing else Listing(0, 0)
  }

  function BidOrZero(s: State, a: Address): Bid {
    if IsBidAt(s, a) then s.accounts[a].bid else Bid(0, 0)
  }

  /**
   * `initialize`: the pool account must be at its derived address and not yet
   * allocated; it then holds the default pool. (The pool's three token accounts
   * are created by the token program and are not part of this state.)
   */
  function Initialize(s: State, ctx: InitializeAccounts): (r: Result<State, Failure>)
    ensures ctx.pool != PoolAddress() ==> r == Err(Taker(ContractAddressNotCorrect))
    ensures ctx.pool == PoolAddress() && PoolAddress() in s.accounts ==> r == Err(Abort(AccountAlreadyInUse))
    ensures r.Ok? <==> ctx.pool == PoolAddress() && PoolAddress() !in s.accounts
    ensures r.Ok? ==> r.value.ledger == s.ledger && OnlyChanges(s, r.value, {PoolAddress()}) &&
                      PoolOf(r.value) == Some(Pools.NewPool(ctx.pool_owner, ctx.tkr_mint, ctx.tai_mint, ctx.dai_mint, ctx.bump))
  {
    if ctx.pool != PoolAddress() then Err(Taker(ContractAddressNotCorrect))
    else if PoolAddress() in s.accounts then Err(Abort(AccountAlreadyInUse))
    else
      var pool := Pools.NewPool(ctx.pool_owner, ctx.tkr_mint, ctx.tai_mint, ctx.dai_mint, ctx.bump);
      Ok(State(s.accounts[PoolAddress() := PoolAccount(pool)], s.ledger))
  }

  /**
   * `deposit_nft`: `count` collateral units move from the user to the pool, the
   * user is paid `count * deposit_incentive` reward tokens, and the user's
   * listing for the mint grows by `count`.
   */
  function DepositNFT(s: State, ctx: DepositNFTAccounts, count: u64): (r: Result<State, Failure>)
    ensures PoolOf(s).None? ==> r == Err(Abort(AccountNotDeserializable))
    ensures PoolOf(s).Some? && count == 0 ==> r == Ok(s)
    ensures r.Ok? <==>
              && PoolOf(s).Some?
              && (count == 0 ||
                  var pool := PoolOf(s).value;
                  var old_l := ListingOrZero(s, ctx.listing);
                  && ctx.tkr_mint == pool.tkr_mint && ctx.pool_tkr_account.mint == pool.tkr_mint
                  && ctx.nft_mint.decimals == 0
                  && count * pool.deposit_incentive <= U64_MAX
                  && ctx.listing == ListingAddress(ctx.nft_mint.key, ctx.user_wallet)
                  && (ctx.listing !in s.accounts || IsListingAt(s, ctx.listing))
                  && old_l.count + count <= U64_MAX && old_l.available + count <= U64_MAX)
    ensures (&& PoolOf(s).Some? && count > 0 && count * PoolOf(s).value.deposit_incentive > U64_MAX
             && ctx.tkr_mint == PoolOf(s).value.tkr_mint && ctx.pool_tkr_account.mint == PoolOf(s).value.tkr_mint
             && ctx.nft_mint.decimals == 0) ==> r == Err(Abort(ArithmeticOverflow))
    ensures r.Err? && r.error == Taker(NFTListingAddressNotCorrect) ==>
              ctx.listing != ListingAddress(ctx.nft_mint.key, ctx.user_wallet)
    ensures r.Ok? && count > 0 ==>
              var pool := PoolOf(s).value;
              var old_l := ListingOrZero(s, ctx.listing);
              && ctx.listing == ListingAddress(ctx.nft_mint.key, ctx.user_wallet)
              && ctx.tkr_mint == pool.tkr_mint && ctx.pool_tkr_account.mint == pool.tkr_mint
              && ctx.nft_mint.decimals == 0
              && count * pool.deposit_incentive <= U64_MAX
              && r.value.ledger == s.ledger + [
                   Transfer(ctx.user_nft_account, ctx.pool_nft_account, Key(ctx.user_wallet), count),
                   Transfer(ctx.pool_tkr_account.address, ctx.user_tkr_account, PoolAddress(),
                            count * pool.deposit_incentive)]
              && OnlyChanges(s, r.value, {ctx.listing}) && IsListingAt(r.value, ctx.listing)
              && ListingAt(r.value, ctx.listing).count == old_l.count + count
              && ListingAt(r.value, ctx.listing).available == old_l.available + count
  {
    match PoolOf(s)
    case None => Err(Abort(AccountNotDeserializable))
    case Some(pool) =>
      if count == 0 then Ok(s)
      else if ctx.tkr_mint != pool.tkr_mint || ctx.pool_tkr_account.mint != pool.tkr_mint then Err(Abort(AssertionFailed))
      else if ctx.nft_mint.decimals != 0 then Err(Abort(AssertionFailed))
      else
        var nft_in := Transfer(ctx.user_nft_account, ctx.pool_nft_account, Key(ctx.user_wallet), count);
        match CheckedMul(count, pool.deposit_incentive)
        case None => Err(Abort(ArithmeticOverflow))
        case Some(reward) =>
          var reward_out := Transfer(ctx.pool_tkr_account.address, ctx.user_tkr_account, PoolAddress(), reward);
          var listing :- Listings.Ensure(s.accounts, ctx.nft_mint.key, ctx.user_wallet, ctx.listing);
          var listing' :- Listings.Deposit(listing, count);
          Ok(State(s.accounts[ctx.listing := ListingAccount(listing')], s.ledger + [nft_in, reward_out]))
  }

  /**
   * The error `deposit_nft` reports at each check, once the checks before it pass:
   * a mint mismatch or nonzero decimals is an assertion failure, a wrong listing
   * address is `NFTListingAddressNotCorrect` and nothing else is, another kind of
   * account at the listing address fails to deserialise, and a counter past `u64`
   * is an arithmetic overflow.
   */
  lemma DepositNFTRefusals(s: State, ctx: DepositNFTAccounts, count: u64)
    ensures var r := DepositNFT(s, ctx, count);
            (PoolOf(s).Some? && count > 0 &&
             (ctx.tkr_mint != PoolOf(s).value.tkr_mint || ctx.pool_tkr_account.mint != PoolOf(s).value.tkr_mint ||
              ctx.nft_mint.decimals != 0)) ==> r == Err(Abort(AssertionFailed))
    ensures var r := DepositNFT(s, ctx, count);
            (&& PoolOf(s).Some? && count > 0
             && ctx.tkr_mint == PoolOf(s).value.tkr_mint && ctx.pool_tkr_account.mint == PoolOf(s).value.tkr_mint
             && ctx.nft_mint.decimals == 0 && count * PoolOf(s).value.deposit_incentive <= U64_MAX) ==>
              && (r == Err(Taker(NFTListingAddressNotCorrect)) <==>
                    ctx.listing != ListingAddress(ctx.nft_mint.key, ctx.user_wallet))
              && ((ctx.listing == ListingAddress(ctx.nft_mint.key, ctx.user_wallet) && ctx.listing in s.accounts &&
                   !IsListingAt(s, ctx.listing)) ==> r == Err(Abort(AccountNotDeserializable)))
              && ((ctx.listing == ListingAddress(ctx.nft_mint.key, ctx.user_wallet) &&
                   (ctx.listing !in s.accounts || IsListingAt(s, ctx.listing)) &&
                   (ListingOrZero(s, ctx.listing).count + count > U64_MAX ||
                    ListingOrZero(s, ctx.listing).available + count > U64_MAX)) ==> r == Err(Abort(ArithmeticOverflow)))
  {
  }

  /**
   * `withdraw_nft`: the listing must be the user's for the mint; `count` units
   * leave it and go back to the user.
   */
  function WithdrawNFT(s: State, ctx: WithdrawNFTAccounts, count: u64): (r: Result<State, Failure>)
    ensures PoolOf(s).None? || !IsListingAt(s, ctx.listing) ==> r == Err(Abort(AccountNotDeserializable))
    ensures (PoolOf(s).Some? && IsListingAt(s, ctx.listing) &&
             ctx.listing != ListingAddress(ctx.nft_mint.key, ctx.user_wallet)) ==> r == Err(Taker(NFTListingAddressNotCorrect))
    ensures (PoolOf(s).Some? && IsListingAt(s, ctx.listing) && ctx.listing == ListingAddress(ctx.nft_mint.key, ctx.user_wallet) &&
             count > ListingAt(s, ctx.listing).available) ==> r == Err(Taker(NFTOverdrawn))
    ensures r.Ok? <==>
              && PoolOf(s).Some? && IsListingAt(s, ctx.listing)
              && ctx.listing == ListingAddress(ctx.nft_mint.key, ctx.user_wallet)
              && count <= ListingAt(s, ctx.listing).available && count <= ListingAt(s, ctx.listing).count
    ensures r.Ok? ==>
              IsListingAt(s, ctx.listing) &&
              var l := ListingAt(s, ctx.listing);
              && ctx.listing == ListingAddress(ctx.nft_mint.key, ctx.user_wallet)
              && count <= l.available
              && r.value.ledger == s.ledger + [Transfer(ctx.pool_nft_account, ctx.user_nft_account, PoolAddress(), count)]
              && OnlyChanges(s, r.value, {ctx.listing}) && IsListingAt(r.value, ctx.listing)
              && ListingAt(r.value, ctx.listing).count == l.count - count
              && ListingAt(r.value, ctx.listing).available == l.available - count
  {
    if PoolOf(s).None? || !IsListingAt(s, ctx.listing) then Err(Abort(AccountNotDeserializable))
    else if ctx.listing != ListingAddress(ctx.nft_mint.key, ctx.user_wallet) then Err(Taker(NFTListingAddressNotCorrect))
    else
      var listing' :- Listings.Withdraw(s.accounts[ctx.listing].listing, count);
      var nft_out := Transfer(ctx.pool_nft_account, ctx.user_nft_account, PoolAddress(), count);
      Ok(State(s.accounts[ctx.listing := ListingAccount(listing')], s.ledger + [nft_out]))
  }

  /**
   * `bid`: a lender offers `price` per unit for `qty` units of the mint, delegates
   * `price * qty` of currency to the pool, and the offer replaces any earlier one.
   */
  function PlaceBid(s: State, ctx: BidAccounts, price: u64, qty: u64): (r: Result<State, Failure>)
    ensures PoolOf(s).None? ==> r == Err(Abort(AccountNotDeserializable))
    ensures PoolOf(s).Some? && qty == 0 ==> r == Ok(s)
    ensures PoolOf(s).Some? && qty > ctx.nft_mint.supply ==> r == Err(Taker(NFTOverbid))
    ensures r.Ok? <==>
              && PoolOf(s).Some?
              && (qty == 0 ||
                  (&& qty <= ctx.nft_mint.supply && ctx.nft_mint.decimals == 0
                   && price * qty <= U64_MAX
                   && ctx.bid == BidAddress(ctx.nft_mint.key, ctx.user_wallet)
                   && (ctx.bid !in s.accounts || IsBidAt(s, ctx.bid))))
    ensures r.Err? && r.error == Taker(NFTBidAddressNotCorrect) ==> ctx.bid != BidAddress(ctx.nft_mint.key, ctx.user_wallet)
    ensures r.Ok? && qty > 0 ==>
              && qty <= ctx.nft_mint.supply && ctx.nft_mint.decimals == 0
              && ctx.bid == BidAddress(ctx.nft_mint.key, ctx.user_wallet)
              && price * qty <= U64_MAX
              && r.value.ledger == s.ledger + [Approve(ctx.user_dai_account, PoolAddress(), price * qty)]
              && OnlyChanges(s, r.value, {ctx.bid}) && IsBidAt(r.value, ctx.bid)
              && BidAt(r.value, ctx.bid) == Bid(price, qty)
  {
    match PoolOf(s)
    case None => Err(Abort(AccountNotDeserializable))
    case Some(_) =>
      if qty == 0 then Ok(s)
      else if qty > ctx.nft_mint.supply then Err(Taker(NFTOverbid))
      else if ctx.nft_mint.decimals != 0 then Err(Abort(AssertionFailed))
      else match CheckedMul(price, qty)
        case None => Err(Abort(ArithmeticOverflow))
        case Some(allowance) =>
          var bid :- Bids.Ensure(s.accounts, ctx.nft_mint.key, ctx.user_wallet, ctx.bid);
          var approval := Approve(ctx.user_dai_account, PoolAddress(), allowance);
          Ok(State(s.accounts[ctx.bid := BidAccount(Bids.Place(bid, price, qty))], s.ledger + [approval]))
  }

  /**
   * The error `place_bid` reports at each check, once the checks before it pass:
   * nonzero decimals is an assertion failure, an approval past `u64` is an
   * arithmetic overflow, a wrong bid address is `NFTBidAddressNotCorrect` and
   * nothing else is, and another kind of account at the bid address fails to
   * deserialise.
   */
  lemma PlaceBidRefusals(s: State, ctx: BidAccounts, price: u64, qty: u64)
    ensures var r := PlaceBid(s, ctx, price, qty);
            (PoolOf(s).Some? && 0 < qty <= ctx.nft_mint.supply && ctx.nft_mint.decimals != 0) ==>
              r == Err(Abort(AssertionFailed))
    ensures var r := PlaceBid(s, ctx, price, qty);
            (PoolOf(s).Some? && 0 < qty <= ctx.nft_mint.supply && ctx.nft_mint.decimals == 0 &&
             price * qty > U64_MAX) ==> r == Err(Abort(ArithmeticOverflow))
    ensures var r := PlaceBid(s, ctx, price, qty);
            (PoolOf(s).Some? && 0 < qty <= ctx.nft_mint.supply && ctx.nft_mint.decimals == 0 &&
             price * qty <= U64_MAX) ==>
              && (r == Err(Taker(NFTBidAddressNotCorrect)) <==> ctx.bid != BidAddress(ctx.nft_mint.key, ctx.user_wallet))
              && ((ctx.bid == BidAddress(ctx.nft_mint.key, ctx.user_wallet) && ctx.bid in s.accounts &&
                   !IsBidAt(s, ctx.bid)) ==> r == Err(Abort(AccountNotDeserializable)))
  {
  }

  /**
   * `cancel_bid`: the lender's bid for the mint is zeroed; the currency
   * delegation is revoked only when asked to.
   */
  function CancelBid(s: State, ctx: CancelBidAccounts, revoke: bool): (r: Result<State, Failure>)
    ensures !IsBidAt(s, ctx.bid) ==> r == Err(Abort(AccountNotDeserializable))
    ensures r.Ok? <==> IsBidAt(s, ctx.bid) && ctx.nft_mint.decimals == 0 &&
                       ctx.bid == BidAddress(ctx.nft_mint.key, ctx.user_wallet)
    ensures r.Ok? ==>
              && OnlyChanges(s, r.value, {ctx.bid}) && IsBidAt(r.value, ctx.bid)
              && BidAt(r.value, ctx.bid) == Bid(0, 0)
              && r.value.ledger == s.ledger + (if revoke then [Revoke(ctx.user_dai_account)] else [])
  {
    if !IsBidAt(s, ctx.bid) then Err(Abort(AccountNotDeserializable))
    else if ctx.nft_mint.decimals != 0 then Err(Abort(AssertionFailed))
    else if ctx.bid != BidAddress(ctx.nft_mint.key, ctx.user_wallet) then Err(Taker(NFTBidAddressNotCorrect))
    else
      var bid' := Bids.Cancel(s.accounts[ctx.bid].bid);
      var revocation := if revoke then [Revoke(ctx.user_dai_account)] else [];
      Ok(State(s.accounts[ctx.bid := BidAccount(bid')], s.ledger + revocation))
  }

  /**
   * `borrow`: the lender's delegated currency pays `amount` to the borrower, one
   * unit of the bid and one available unit of the listing are consumed, and a
   * loan is created at the (mint, borrower, lender, loan id) address, expiring
   * `max_loan_duration` seconds after `now`. The listing and bid accounts are
   * taken as supplied; only the loan address is checked.
   */
  function Borrow(s: State, ctx: BorrowAccounts, loan_id: Pubkey, amount: u64, now: i64): (r: Result<State, Failure>)
    ensures PoolOf(s).None? || !IsListingAt(s, ctx.listing) || !IsBidAt(s, ctx.bid) ==>
              r == Err(Abort(AccountNotDeserializable))
    ensures (PoolOf(s).Some? && IsListingAt(s, ctx.listing) && IsBidAt(s, ctx.bid) &&
             amount > BidAt(s, ctx.bid).price) ==> r == Err(Taker(NFTBorrowExceedBid))
    ensures ctx.loan in s.accounts ==> r.Err?
    ensures r.Ok? <==>
              && PoolOf(s).Some? && IsListingAt(s, ctx.listing) && IsBidAt(s, ctx.bid)
              && amount <= BidAt(s, ctx.bid).price
              && BidAt(s, ctx.bid).qty >= 1
              && ListingAt(s, ctx.listing).available >= 1
              && ctx.loan == LoanAddress(ctx.nft_mint.key, ctx.borrower_wallet, ctx.lender_wallet, loan_id)
              && ctx.loan !in s.accounts
              && I64_MIN <= now + PoolOf(s).value.max_loan_duration <= I64_MAX
    ensures r.Ok? ==>
              PoolOf(s).Some? && IsBidAt(s, ctx.bid) && IsListingAt(s, ctx.listing) &&
              var pool := PoolOf(s).value;
              var b := BidAt(s, ctx.bid);
              var l := ListingAt(s, ctx.listing);
              && amount <= b.price && b.qty >= 1 && l.available >= 1
              && ctx.loan == LoanAddress(ctx.nft_mint.key, ctx.borrower_wallet, ctx.lender_wallet, loan_id)
              && ctx.loan !in s.accounts
              && r.value.ledger == s.ledger + [Transfer(ctx.lender_dai_account, ctx.borrower_dai_account, PoolAddress(), amount)]
              && OnlyChanges(s, r.value, {ctx.bid, ctx.listing, ctx.loan})
              && IsBidAt(r.value, ctx.bid) && IsListingAt(r.value, ctx.listing) && IsLoanAt(r.value, ctx.loan)
              && BidAt(r.value, ctx.bid).price == b.price && BidAt(r.value, ctx.bid).qty == b.qty - 1
              && ListingAt(r.value, ctx.listing).count == l.count
              && ListingAt(r.value, ctx.listing).available == l.available - 1
              && var loan := LoanAt(r.value, ctx.loan);
                 loan.cash == amount && loan.started_at == now &&
                 loan.expired_at == now + pool.max_loan_duration && loan.state == Active
  {
    if PoolOf(s).None? || !IsListingAt(s, ctx.listing) || !IsBidAt(s, ctx.bid) then Err(Abort(AccountNotDeserializable))
    else
      var pool := PoolOf(s).value;
      var bid := s.accounts[ctx.bid].bid;
      if amount > bid.price then Err(Taker(NFTBorrowExceedBid))
      else
        var cash_out := Transfer(ctx.lender_dai_account, ctx.borrower_dai_account, PoolAddress(), amount);
        var bid' :- Bids.Trade(bid, 1);
        var listing' :- Listings.BorrowSuccess(s.accounts[ctx.listing].listing);
        var loan :- Loans.StartBorrow(s.accounts, ctx.nft_mint.key, ctx.borrower_wallet, ctx.lender_wallet,
                                      loan_id, ctx.loan, amount, now, pool.max_loan_duration);
        Ok(State(s.accounts[ctx.bid := BidAccount(bid')][ctx.listing := ListingAccount(listing')][ctx.loan := LoanAccount(loan)],
                 s.ledger + [cash_out]))
  }

  /**
   * The error `borrow` reports at each check after the amount check, once the
   * checks before it pass: no bid unit left is `NFTOvertrade`, no listing unit
   * available is `EmptyNFTReserve`, a wrong loan address is
   * `NFTLoanAddressNotCorrect`, a loan already there is `LoanAlreadyExist`, and an
   * expiry past `i64` is an arithmetic overflow.
   */
  lemma BorrowRefusals(s: State, ctx: BorrowAccounts, loan_id: Pubkey, amount: u64, now: i64)
    ensures var r := Borrow(s, ctx, loan_id, amount, now);
            (PoolOf(s).Some? && IsListingAt(s, ctx.listing) && IsBidAt(s, ctx.bid) &&
             amount <= BidAt(s, ctx.bid).price) ==>
              var b := BidAt(s, ctx.bid);
              var l := ListingAt(s, ctx.listing);
              var derived := LoanAddress(ctx.nft_mint.key, ctx.borrower_wallet, ctx.lender_wallet, loan_id);
              && (b.qty == 0 ==> r == Err(Taker(NFTOvertrade)))
              && (b.qty >= 1 && l.available == 0 ==> r == Err(Taker(EmptyNFTReserve)))
              && (b.qty >= 1 && l.available >= 1 && ctx.loan != derived ==> r == Err(Taker(NFTLoanAddressNotCorrect)))
              && (b.qty >= 1 && l.available >= 1 && ctx.loan == derived && ctx.loan in s.accounts ==>
                    r == Err(Taker(LoanAlreadyExist)))
              && ((b.qty >= 1 && l.available >= 1 && ctx.loan == derived && ctx.loan !in s.accounts &&
                   !(I64_MIN <= now + PoolOf(s).value.max_loan_duration <= I64_MAX)) ==> r == Err(Abort(ArithmeticOverflow)))
  {
  }

  /** The time guard of `repay`: repayment is refused once `now` is past expiry. */
  predicate RepayWindowOpen(now: i64, expired_at: i64) {
    !(now > expired_at)
  }

  /** The time guard of `liquidate`: liquidation is refused until `now` is past expiry. */
  predicate LiquidationWindowOpen(now: i64, expired_at: i64) {
    !(now <= expired_at)
  }

  /**
   * `repay`: refused with `LoanLiquidated` once the loan is past expiry or
   * liquidated (a `Repayed` loan is not refused). The borrower pays the lender
   * principal plus floored interest and the pool the floored service fee, both
   * computed with checked arithmetic; the loan becomes `Repayed` and one listing
   * unit becomes available again.
   */
  function Repay(s: State, ctx: RepayAccounts, now: i64): (r: Result<State, Failure>)
    ensures PoolOf(s).None? || !IsListingAt(s, ctx.listing) || !IsLoanAt(s, ctx.loan) ==>
              r == Err(Abort(AccountNotDeserializable))
    ensures PoolOf(s).Some? && IsListingAt(s, ctx.listing) && IsLoanAt(s, ctx.loan) ==>
              (r == Err(Taker(LoanLiquidated)) <==>
                 !RepayWindowOpen(now, LoanAt(s, ctx.loan).expired_at) || LoanAt(s, ctx.loan).state == Liquidated)
    ensures r.Ok? <==>
              && PoolOf(s).Some? && IsListingAt(s, ctx.listing) && IsLoanAt(s, ctx.loan)
              && RepayWindowOpen(now, LoanAt(s, ctx.loan).expired_at) && LoanAt(s, ctx.loan).state != Liquidated
              && Loans.LenderRepayment(LoanAt(s, ctx.loan).cash, PoolOf(s).value.interest_rate).Some?
              && Loans.BasisPointsOf(LoanAt(s, ctx.loan).cash, PoolOf(s).value.service_fee_rate).Some?
              && ListingAt(s, ctx.listing).available < ListingAt(s, ctx.listing).count
    ensures r.Ok? ==>
              PoolOf(s).Some? && IsListingAt(s, ctx.listing) && IsLoanAt(s, ctx.loan) &&
              var pool := PoolOf(s).value;
              var loan := LoanAt(s, ctx.loan);
              var l := ListingAt(s, ctx.listing);
              && now <= loan.expired_at && loan.state != Liquidated && l.available < l.count
              && Loans.LenderRepayment(loan.cash, pool.interest_rate).Some?
              && Loans.BasisPointsOf(loan.cash, pool.service_fee_rate).Some?
              && r.value.ledger == s.ledger + [
                   Transfer(ctx.borrower_dai_account, ctx.lender_dai_account, Key(ctx.borrower_wallet),
                            Loans.LenderRepayment(loan.cash, pool.interest_rate).value),
                   Transfer(ctx.borrower_dai_account, ctx.pool_dai_account, Key(ctx.borrower_wallet),
                            Loans.BasisPointsOf(loan.cash, pool.service_fee_rate).value)]
              && OnlyChanges(s, r.value, {ctx.loan, ctx.listing})
              && IsLoanAt(r.value, ctx.loan) && IsListingAt(r.value, ctx.listing)
              && LoanAt(r.value, ctx.loan).state == Repayed && SameTerms(loan, LoanAt(r.value, ctx.loan))
              && ListingAt(r.value, ctx.listing).count == l.count
              && ListingAt(r.value, ctx.listing).available == l.available + 1
  {
    if PoolOf(s).None? || !IsListingAt(s, ctx.listing) || !IsLoanAt(s, ctx.loan) then Err(Abort(AccountNotDeserializable))
    else
      var pool := PoolOf(s).value;
      var loan := s.accounts[ctx.loan].loan;
      if !RepayWindowOpen(now, loan.expired_at) || loan.state == Liquidated then Err(Taker(LoanLiquidated))
      else match (Loans.LenderRepayment(loan.cash, pool.interest_rate), Loans.BasisPointsOf(loan.cash, pool.service_fee_rate))
        case (None, _) => Err(Abort(ArithmeticOverflow))
        case (_, None) => Err(Abort(ArithmeticOverflow))
        case (Some(to_lender), Some(fee)) =>
          var payments := [
            Transfer(ctx.borrower_dai_account, ctx.lender_dai_account, Key(ctx.borrower_wallet), to_lender),
            Transfer(ctx.borrower_dai_account, ctx.pool_dai_account, Key(ctx.borrower_wallet), fee)];
          var listing' :- Listings.RepaySuccess(s.accounts[ctx.listing].listing);
          Ok(State(s.accounts[ctx.loan := LoanAccount(Loans.Repay(loan))][ctx.listing := ListingAccount(listing')],
                   s.ledger + payments))
  }

  /**
   * Past the window check, `repay` aborts on an interest or fee computation past
   * `u64`. A listing with no unit lent out fails the assertion in
   * `repay_success`, except at `available == u64::MAX`, where the increment
   * itself overflows.
   */
  lemma RepayRefusals(s: State, ctx: RepayAccounts, now: i64)
    ensures var r := Repay(s, ctx, now);
            (PoolOf(s).Some? && IsListingAt(s, ctx.listing) && IsLoanAt(s, ctx.loan) &&
             RepayWindowOpen(now, LoanAt(s, ctx.loan).expired_at) && LoanAt(s, ctx.loan).state != Liquidated) ==>
              var pool := PoolOf(s).value;
              var loan := LoanAt(s, ctx.loan);
              var l := ListingAt(s, ctx.listing);
              && ((Loans.LenderRepayment(loan.cash, pool.interest_rate).None? ||
                   Loans.BasisPointsOf(loan.cash, pool.service_fee_rate).None?) ==> r == Err(Abort(ArithmeticOverflow)))
              && (l.available >= l.count ==> r.Err? && r.error.Abort?)
              && ((Loans.LenderRepayment(loan.cash, pool.interest_rate).Some? &&
                   Loans.BasisPointsOf(loan.cash, pool.service_fee_rate).Some? &&
                   l.count <= l.available < U64_MAX) ==> r == Err(Abort(AssertionFailed)))
              && ((Loans.LenderRepayment(loan.cash, pool.interest_rate).Some? &&
                   Loans.BasisPointsOf(loan.cash, pool.service_fee_rate).Some? &&
                   l.available == U64_MAX) ==> r == Err(Abort(ArithmeticOverflow)))
  {
  }

  /**
   * `liquidate`: only an active loan past expiry; one collateral unit goes from
   * the pool to the calling lender, the loan becomes `Liquidated` and the unit
   * leaves the listing.
   */
  function Liquidate(s: State, ctx: LiquidateAccounts, now: i64): (r: Result<State, Failure>)
    ensures PoolOf(s).None? || !IsListingAt(s, ctx.listing) || !IsLoanAt(s, ctx.loan) ==>
              r == Err(Abort(AccountNotDeserializable))
    ensures PoolOf(s).Some? && IsListingAt(s, ctx.listing) && IsLoanAt(s, ctx.loan) ==>
              (r == Err(Taker(LoanNotActive)) <==> LoanAt(s, ctx.loan).state != Active) &&
              (r == Err(Taker(LoanNotExpired)) <==>
                 LoanAt(s, ctx.loan).state == Active && !LiquidationWindowOpen(now, LoanAt(s, ctx.loan).expired_at))
    ensures r.Ok? <==>
              && PoolOf(s).Some? && IsListingAt(s, ctx.listing) && IsLoanAt(s, ctx.loan)
              && LoanAt(s, ctx.loan).state == Active
              && LiquidationWindowOpen(now, LoanAt(s, ctx.loan).expired_at)
              && 1 <= ListingAt(s, ctx.listing).available && 1 <= ListingAt(s, ctx.listing).count
    ensures r.Ok? ==>
              PoolOf(s).Some? && IsListingAt(s, ctx.listing) && IsLoanAt(s, ctx.loan) &&
              var loan := LoanAt(s, ctx.loan);
              var l := ListingAt(s, ctx.listing);
              && loan.state == Active && now > loan.expired_at && l.available >= 1
              && r.value.ledger == s.ledger + [Transfer(ctx.pool_nft_account, ctx.lender_nft_account, PoolAddress(), 1)]
              && OnlyChanges(s, r.value, {ctx.loan, ctx.listing})
              && IsLoanAt(r.value, ctx.loan) && IsListingAt(r.value, ctx.listing)
              && LoanAt(r.value, ctx.loan).state == Liquidated && SameTerms(loan, LoanAt(r.value, ctx.loan))
              && ListingAt(r.value, ctx.listing).count == l.count - 1
              && ListingAt(r.value, ctx.listing).available == l.available - 1
  {
    if PoolOf(s).None? || !IsListingAt(s, ctx.listing) || !IsLoanAt(s, ctx.loan) then Err(Abort(AccountNotDeserializable))
    else
      var loan := s.accounts[ctx.loan].loan;
      if loan.state != Active then Err(Taker(LoanNotActive))
      else if !LiquidationWindowOpen(now, loan.expired_at) then Err(Taker(LoanNotExpired))
      else
        var nft_out := Transfer(ctx.pool_nft_account, ctx.lender_nft_account, PoolAddress(), 1);
        var listing' :- Listings.Liquidate(s.accounts[ctx.listing].listing, 1);
        Ok(State(s.accounts[ctx.loan := LoanAccount(Loans.Liquidate(loan))][ctx.listing := ListingAccount(listing')],
                 s.ledger + [nft_out]))
  }

  /**
   * For an active loan past its window, `liquidate` refuses a listing with no
   * available unit as `NFTOverdrawn`, and aborts on one whose count is zero.
   */
  lemma LiquidateRefusals(s: State, ctx: LiquidateAccounts, now: i64)
    ensures var r := Liquidate(s, ctx, now);
            (PoolOf(s).Some? && IsListingAt(s, ctx.listing) && IsLoanAt(s, ctx.loan) &&
             LoanAt(s, ctx.loan).state == Active && LiquidationWindowOpen(now, LoanAt(s, ctx.loan).expired_at)) ==>
              && (ListingAt(s, ctx.listing).available == 0 ==> r == Err(Taker(NFTOverdrawn)))
              && (ListingAt(s, ctx.listing).available >= 1 && ListingAt(s, ctx.listing).count == 0 ==>
                    r == Err(Abort(ArithmeticOverflow)))
  {
  }
}

=== FILE: taker_codec.dfy ===
/**
 * The instruction wire format of `programs/taker`: one tag byte, then the
 * instruction's fields. Tag 0 is `Initialize`, tag 1 is `DepositNFT` followed by
 * its 32-byte token id. Bytes after the decoded fields are ignored.
 */
module TakerCodec {
  import opened Results
  import opened Primitives
  import opened KeyCodec

  datatype TakerInstruction = Initialize | DepositNFT(token_id: Pubkey)

  /** `TakerInstruction::unpack`. */
  function Unpack(input: seq<byte>): (r: Result<TakerInstruction, CodecError>)
    ensures |input| == 0 ==> r == Err(InvalidInstruction)
    ensures r == Ok(Initialize) <==> |input| > 0 && input[0] == 0
    ensures r.Ok? && r.value.DepositNFT? <==> |input| >= 33 && input[0] == 1
    ensures r.Ok? && r.value.DepositNFT? ==> r.value.token_id == input[1..33]
    ensures r.Err? ==> r.error == InvalidInstruction
  {
    if |input| == 0 then Err(InvalidInstruction)
    else
      var tag, rest := input[0], input[1..];
      match tag
      case 0 => Ok(Initialize)
      case 1 =>
        var (key, _) :- UnpackPubkey(rest);
        assert key == input[1..33];
        Ok(DepositNFT(key))
      case _ => Err(InvalidInstruction)
  }

  /** `TakerInstruction::pack`: its output decodes back to the instruction. */
  function Pack(i: TakerInstruction): (r: seq<byte>)
    ensures |r| == if i.Initialize? then 1 else 33
    ensures Unpack(r) == Ok(i)
  {
    match i
    case Initialize => [0]
    case DepositNFT(token_id) =>
      assert ([1 as byte] + token_id)[1..33] == token_id;
      [1 as byte] + token_id
  }

  /** Decoding a packed instruction followed by any trailing bytes gives it back. */
  lemma UnpackPackWithTail(i: TakerInstruction, tail: seq<byte>)
    ensures Unpack(Pack(i) + tail) == Ok(i)
  {
    var input := Pack(i) + tail;
    assert input[0] == Pack(i)[0];
    if i.DepositNFT? {
      assert input[1..33] == Pack(i)[1..33];
    }
  }

  /** Whatever decodes successfully starts with the encoding of what it decoded to. */
  lemma PackIsPrefixOfDecoded(input: seq<byte>)
    requires Unpack(input).Ok?
    ensures Pack(Unpack(input).value) <= input
  {
    var i := Unpack(input).value;
    if i.DepositNFT? {
      assert Pack(i) == [input[0]] + input[1..33];
    }
  }
}
